=== FILE: README.md ===
# dedex driver — a Dafny model

`dedex` is a command-line disassembler for Android `.dex` files and `.apk`
archives. Its driver, `MainClass.Main` in `dedex/Main.cs`, does four things
before and around the disassembler library:

- It scans the arguments. This is a two-state machine with one pending-option slot. It
  sets the class pattern (`-c`), the display flags (`-d`), the output directory (`-o`)
  and the writer (`-w`). It collects `.dex` inputs directly and extracts `classes.dex`
  from `.apk` archives into temporary files. A `Stop` is fatal and ends the run.
- It builds the display-flag set as a union of keyword presets.
- It keeps classes whose fully qualified name matches the anchored regex
  `"^" + pattern.Replace("*", ".*") + "$"`.
- It plans each input:
  - the name shown for it (a temporary file is shown under the archive it came from);
  - the console banner, or, under `-o`, the file and directory each class goes to;
  - in a `finally`, the deletion of every temporary file.

The model is a pure "run planner". `Orchestrator.Plan` maps the following to an `Outcome`:
- a file-system oracle (`FileSystem.Oracle`);
- the registered writer names;
- the writer's file extension;
- the argument list.

The `Outcome` is one of:
- a fatal stop, with the temporary files it leaves behind;
- the usage text;
- a finished run, with its events (banners, directory creations, class renderings), whether
  it failed, and the files deleted.

Modules, in dependency order:

| module | file | what it holds |
|---|---|---|
| `Outcomes` | outcomes.dfy | `Option`, `Result` |
| `Seqs` | seqs.dfy | filtering, counting, relabelling sequences |
| `Text` | text.dfy | the `string` and `System.IO.Path` operations the driver uses |
| `DisplayFlags` | display_flags.dfy | the `-d` flag algebra |
| `ClassFilter` | class_filter.dfy | the `-c` pattern as a regex and its matcher |
| `WriterRegistry` | writer_registry.dfy | `GetWritersMap`, `-w` lookup, `PrintHelp` text |
| `FileSystem` | file_system.dfy | the oracle and the temporary-file names |
| `ArgScanner` | arg_scanner.dfy | the argument loop |
| `OutputRouter` | output_router.dfy | banners and per-class paths |
| `Orchestrator` | orchestrator.dfy | display names, the processing loop, cleanup, whole runs |

The model follows the code as written (for `-c`, not a glob reading):
- `.` in a `-c` pattern is a regex wildcard, not a literal dot.
- A value token is examined again as an option or input after it is dispatched. There is no `continue` after the `switch`.
- `-w` looks the trimmed value up as an exact key, without lower-casing it.
- Under `-o` no banner is printed.

## Model

| member | source | states |
|---|---|---|
| DisplayFlags.ApplyElements | dedex/Main.cs:36-67 | Succeeds exactly when every element lower-cases to a keyword. The result holds the old flags plus the preset of every element, and nothing else. Failure names the first unknown element in "Unsupported display option …". |
| DisplayFlags.ApplyValue | dedex/Main.cs:35-67 | A `-d` value is split on ','. It succeeds exactly when every piece is a keyword, and the flags only grow. |
| DisplayFlags.ElementOrderIrrelevant | dedex/Main.cs:36-67 | Two element lists with the same elements give the same outcome and the same flag set. |
| DisplayFlags.ValuesCommute | dedex/Main.cs:34-68 | Two accepted `-d` values give the same flag set in either order. |
| DisplayFlags.AllIsEverything | dedex/Main.cs:57-61 | `all` sets every display flag, whatever was set before. |
| DisplayFlags.EmptyElementIsFatal | dedex/Main.cs:63-65 | An empty element is fatal: `-d ""` fails with "Unsupported display option " followed by the empty element, and so does any value ending in a comma. |
| Text.SplitJoin | dedex/Main.cs:35 | Joining the pieces of `Split` with the separator gives back the split value. |
| ClassFilter.CompileIsTranslate | dedex/Main.cs:156 | Parsing the regex built by `Replace("*", ".*")` gives a run atom per `*`, an any-character atom per `.`, and a literal for every other character. |
| ClassFilter.StarSplits | dedex/Main.cs:156 | `p*q` matches a name exactly when the name is a match of `p`, then anything, then a match of `q`. |
| ClassFilter.PatternWithoutStar | dedex/Main.cs:156 | A pattern without `*` matches exactly the names of its own length that agree with it at every position where it has no `.`. There is no substring match. |
| ClassFilter.LiteralPattern | dedex/Main.cs:156 | A pattern with no `*` and no `.` matches exactly itself. |
| ClassFilter.DefaultMatchesAll | dedex/Main.cs:17 | The default pattern `*` matches every class name. |
| ClassFilter.DotMatchesAnyCharacter | dedex/Main.cs:156 | The unescaped `.` in `a.b` also matches `aXb`. |
| ClassFilter.TrailingStar | dedex/Main.cs:156 | A star-free pattern followed by `*` matches exactly the names whose leading characters match the pattern. |
| ClassFilter.PackageFilterKeeps | dedex/Main.cs:156 | `x.*` keeps every name of two or more characters that starts with `x`. |
| ClassFilter.PackageFilterExamples | dedex/Main.cs:156 | `x.*` keeps `x.Y` and `x.Z`, and, because `.` is unescaped, also `xY`. |
| ClassFilter.PackageFilterAnchored | dedex/Main.cs:156 | `x.*` drops `q.R`: the match is anchored at the start of the name. |
| WriterRegistry.Lookup | dedex/Main.cs:79-85 | A writer is found exactly when the trimmed value is one of the registry keys (and the keys are distinct). What is found is a registered writer whose key is that value. |
| WriterRegistry.UpperCaseNotFound | dedex/Main.cs:79-81 | A `-w` value with an upper-case letter is never found, because keys are lower-cased. |
| WriterRegistry.EveryKeyFound | dedex/Main.cs:200-209 | Every registered writer is found under its key: lower-cased, spaces removed. |
| WriterRegistry.HelpListsEveryKey | dedex/Main.cs:213-219 | The usage text lists every writer key. |
| WriterRegistry.Choose | dedex/Main.cs:144-147 | The writer a run uses is always a registered one: the one chosen with `-w` (itself registered), else the first registered writer. |
| FileSystem.LooksTemporaryIsExtensionTest | dedex/Main.cs:160-161 | The temporary-file test, read as "the path ends in `tmp` and its file name holds a `.`", holds exactly when the input's extension, which `Path.GetExtension` takes from its file name, ends in `tmp`. |
| FileSystem.TempNameLooksTemporary | dedex/Main.cs:161 | Every extracted temporary file passes the "extension ends in tmp" test. |
| FileSystem.TempNamesDistinct | dedex/Main.cs:119 | Temporary files allocated at different steps have different names. |
| FileSystem.DexInputNotTemporary | dedex/Main.cs:103 | A direct `.dex` input never passes the "extension ends in tmp" test. |
| ArgScanner.Dispatch | dedex/Main.cs:28-91 | Per option, when the value succeeds and the exact message when it fails. `-c` sets the pattern. `-d` sets the flags the flag algebra computes from the value and fails with "Unsupported display option" and its first unknown element. `-o` needs the trimmed value to be an existing directory. `-w` needs an exact registry key. Any other option fails with "Unsupported argument". |
| ArgScanner.Positional | dedex/Main.cs:102-138 | By lower-cased extension: a present `.dex` is appended as an input. A present archive with `classes.dex` appends one entry to each of the three lists. A missing file or an archive without `classes.dex` is only reported. Anything else is ignored. |
| ArgScanner.Step | dedex/Main.cs:26-139 | One loop iteration. It fails exactly when a pending option rejects its value, with that option's message, and then leaks exactly the temporary files so far. The new mode follows the leading `-`. Flags and lists only grow. |
| ArgScanner.StepKeepsReachable | dedex/Main.cs:128-131 | The three lists stay in step. The temporary files are the inputs that look temporary, allocated in order. The class-name flag stays set. |
| ArgScanner.ScanArgs | dedex/Main.cs:25-139 | The whole loop as a left fold. Every state it reaches keeps the lists in step, and any writer chosen with `-w` is a registered one. |
| ArgScanner.StepKeepsWriterRegistered | dedex/Main.cs:78-85 | Only `-w` changes the writer, and only to a registered writer. |
| ArgScanner.ScanGrows | dedex/Main.cs:26-139 | Once a prefix of the arguments has been scanned without a stop, the remaining arguments only add display flags and extend the three lists. A later stop leaks at least the temporary files already made. |
| ArgScanner.ValueTokenReexamined | dedex/Main.cs:93-100 | A value token is dispatched and then also handled as a positional argument. |
| ArgScanner.PatternValueIsAlsoInput | dedex/Main.cs:28-106 | `-c a.dex` with `a.dex` present sets the pattern to `a.dex` and also adds it as an input. |
| ArgScanner.RejectedValueStops | dedex/Main.cs:28-91 | When the first option's value is rejected, the scan stops with that option's message and no temporary file is left behind. |
| ArgScanner.UnsupportedOptionPending | dedex/Main.cs:96-99 | Any token starting with `-`, known or not, is accepted alone and left waiting for its value. |
| ArgScanner.UnsupportedOptionRejectedAtValue | dedex/Main.cs:88-89 | An option outside `-c`, `-d`, `-o`, `-w` followed by any value stops the scan with "Unsupported argument" and that option, before anything is extracted. |
| ArgScanner.TrailingOptionDropped | dedex/Main.cs:96-100 | When no option is pending before it, an option as the last argument changes nothing but the pending slot. |
| ArgScanner.StopLeaksTemporaries | dedex/Main.cs:26-139 | A fatal stop happens at one argument. The scan of the arguments before it succeeded, and that argument's step produces the stop. The leaked list is exactly that scan's temporary files: one per archive, allocated in order. |
| OutputRouter.BannerRoundTrip | dedex/Main.cs:166-173 | The banner is a blank line, the name, an underline of `=` as long as the name, then a blank line. The name can be read back from it. |
| OutputRouter.BannerInjective | dedex/Main.cs:166-173 | Different display names give different banners. |
| OutputRouter.ClassFileLayout | dedex/Main.cs:180-183 | Class `a.b.C` is written to `dir/a/b/C` plus the writer's extension, for a directory written without a trailing separator. |
| OutputRouter.ClassDirectoryHoldsFile | dedex/Main.cs:181-183 | The directory created first is the parent of the class's file. For a class without a package, it is the output directory itself. |
| OutputRouter.ClassFileHasNoEmptySegment | dedex/Main.cs:180-183 | Below the output directory a class's file path never has two separators in a row, because no package segment is empty. |
| OutputRouter.ClassFileInjective | dedex/Main.cs:180-183 | Within one input, two class names without empty package segments that are written to the same file are the same name. |
| Orchestrator.TemporaryTitle | dedex/Main.cs:160-164 | The input that is the k-th temporary file is shown under the file name of the k-th archive argument. |
| Orchestrator.DirectTitle | dedex/Main.cs:160-164 | An input that does not look temporary is shown under its own file name. |
| Orchestrator.DisplayNamesFollowArchives | dedex/Main.cs:153-164 | For every reachable scan, the lock-step index stays in range. Temporary inputs are named after their archive, all others after themselves. |
| Orchestrator.RenderClasses | dedex/Main.cs:176-189 | Per container, every rendering uses the configured flags. Without `-o` it goes to the console. Under `-o` it goes to the class's own file, right after that file's directory is created. No banner is emitted. |
| Orchestrator.RenderedAreSelected | dedex/Main.cs:176-178 | The classes rendered for an input are exactly those the filter selects, in container order. |
| Orchestrator.Process | dedex/Main.cs:152-191 | With opening an input as the only failure the model knows, the processing loop fails exactly when some input cannot be opened. |
| Orchestrator.ProcessBanners | dedex/Main.cs:166-173 | Without `-o`, one banner per opened input, in order, even when no class matches. Under `-o`, none. |
| Orchestrator.ProcessRendered | dedex/Main.cs:154-190 | The renderings are the selected classes of each opened input, input after input. |
| Orchestrator.ProcessRendersWith | dedex/Main.cs:154-190 | Across the whole loop, every rendering carries the configured flags. Without `-o`, every event is a banner or a console rendering. Under `-o`, each rendering goes to its class's own file, right after that file's directory is created. |
| Orchestrator.Plan | dedex/Main.cs:141-197 | The run stops exactly when the scan stops, with the scan's message and leaked files. It prints usage exactly when no input was collected. The writer used is always a registered one: the `-w` choice when there was one, otherwise the first. |
| Orchestrator.StopLeaksExtractions | dedex/Main.cs:223-227 | A stop is produced by one argument's step, with the stop's message and leaked list. It leaves behind exactly the temporary files extracted by the arguments before that one, one per archive. Each looks temporary. |
| Orchestrator.CleanupDeletesExactlyTemporaries | dedex/Main.cs:193-197 | After processing, failed or not, an input is deleted exactly when it looks temporary. Only inputs are deleted. |
| Orchestrator.FinishedRunRenders | dedex/Main.cs:152-197 | A finished run renders the selected classes of every opened input, input after input, and, with opening as the only modelled failure, fails exactly when an input cannot be opened. |
| Orchestrator.FinishedRunRouted | dedex/Main.cs:144-190 | A finished run renders with the flags `-d` built. Without `-o` it renders to the console. Under `-o dir`, the class `a.b.C` goes to `dir/a/b/C` plus the extension of the writer the run used. |
| Orchestrator.FinishedRunBanners | dedex/Main.cs:152-173 | Without `-o` a finished run prints one banner per opened input, in order, under its display name. Under `-o` it prints none. |
| Orchestrator.BannerNamesArchive | dedex/Main.cs:160-173 | On the console, the banner of an extracted input names its archive. A direct input's banner names the input itself. |
| Orchestrator.UnknownWriterStops | dedex/Main.cs:78-85 | `-w` with an unregistered name stops with "Writer … not found", leaking nothing. |
| Orchestrator.TrailingOptionIgnored | dedex/Main.cs:96-100 | When no option is pending before it, a trailing option does not change the run. |
| Orchestrator.SingleArchiveRun | dedex/Main.cs:110-197 | One archive argument is extracted to the first temporary file and announced under the archive's name. All its classes are printed, and the temporary file is deleted. |

## Left out

- Zip extraction (`ZipFile`, the 4096-byte copy loop): an archive is a predicate "has a `classes.dex` entry" on the oracle; the extracted file is the next temporary name.
- `Path.GetTempFileName`: temporary names are `/tmp/tmp<k>.tmp` for the k-th extraction; only their distinctness and their `.tmp` extension matter.
- The `dex.net` library: parsing a container is a map from input path to its class names (a missing entry means opening it throws); `WriteOutClass` is a `Render` event; `GetExtension` is a parameter.
- `WritersFactory`: the registered writer names are a parameter; the model assumes a non-empty registry with distinct keys (`WriterRegistry.WellFormed`), because `Dictionary.Add` throws on a duplicate key.
- A failure of `factory.GetWriter` for a registered name is not modelled.
- Console and stream lifetime: `using (output)` disposes `Console.Out` after the first class in console mode; the model treats every console rendering alike.
- `Environment.Exit`: a stop and the usage text end the plan; the exit status is not modelled.
- Console messages for missing files are collected as reports and not otherwise used; the message text "Couldn't file file" is kept as written.
- A `.apk` that is not a zip file makes `ZipFile` throw; the oracle assumes archives can be opened.
- Text.ToLower: lower-cases ASCII letters only, not culture-specific case mapping.
- Text.Trim: trims ASCII white space only, not every Unicode white-space character.
- Text.FileName: POSIX paths with '/' as the only separator; Windows drive letters and '\' are not modelled.
- Text.Extension: its contract states only the shape of the result; the lemmas about it cover the cases the driver uses.
- ClassFilter.IsMatch: interprets only patterns whose regex operators are `*` and `.`; other .NET regex syntax is outside the model.
- Orchestrator.Plan: requires that a successful scan ends with such a plain pattern.
- ClassFilter.IsMatch: `.` matches every character and `$` only the very end of the name. In .NET, `.` does not match '\n' and `$` also matches just before a final '\n', so a class name containing a line break could be selected differently. Class names in a dex file do not contain line breaks.
- Text: strings are sequences of Unicode scalar values, while .NET strings are UTF-16 code units. A name with a character outside the Basic Multilingual Plane gets one `=` per scalar in `BannerText` where the program writes one per code unit, and a regex `.` consumes a whole scalar where .NET consumes one code unit. `Console.WriteLine` is taken to end lines with '\n' (the POSIX `Environment.NewLine`). `StartsWith` and `EndsWith` are ordinal, while .NET's string overloads compare culture-sensitively.
- OutputRouter.ClassFileInjective: holds between the classes of one input. The same class name in two inputs is routed to the same file, and the second `StreamWriter` overwrites the first; the model records both renderings and does not model file contents.
- Orchestrator.Process: the only failure it models inside the `try` is an input that cannot be opened. Exceptions from enumerating `GetClasses`, from `WriteOutClass`, from `Directory.CreateDirectory` and from `new StreamWriter` are not modelled. The model also runs the `finally` cleanup on every failure; C# runs it for an exception that escapes `Main` only when the runtime unwinds the stack.

=== FILE: arg_scanner.dfy ===
/**
 * The argument loop of `MainClass.Main` (dedex/Main.cs lines 25-139): a
 * left-to-right fold over the tokens with one pending-option slot. A token
 * that supplies an option's value is afterwards examined again, as a new
 * option or as a positional input, because the loop does not `continue`
 * after dispatching it.
 */
module ArgScanner {
  import opened Outcomes
  import opened Text
  import opened DisplayFlags
  import opened WriterRegistry
  import opened FileSystem
  import opened Seqs

  /** The settings the options build. */
  datatype Config = Config(pattern: string, flags: Flags, outDir: Option<string>, writer: Option<string>)

  const Defaults: Config := Config("*", Initial, None, None)

  /** The pending-option slot: empty, or holding an option waiting for its value. */
  datatype Mode = Ready | AwaitingValue(option: string)

  /**
   * The scanner state: the settings, the three lists the source keeps in
   * step (inputs to open, temporary files to delete, archive arguments the
   * temporary files came from) and the non-fatal messages printed so far.
   */
  datatype Scan = Scan(
    mode: Mode,
    config: Config,
    dexFiles: seq<string>,
    tempFiles: seq<string>,
    apkFiles: seq<string>,
    reports: seq<string>)

  const Start: Scan := Scan(Ready, Defaults, [], [], [], [])

  /** A fatal `Stop`: its message, and the temporary files already extracted, which are never deleted. */
  datatype Fatal = Fatal(message: string, leaked: seq<string>)

  /** The options the `switch` knows. */
  const Options: set<string> := {"-c", "-d", "-o", "-w"}

  function UnsupportedArgument(option: string): string { "Unsupported argument " + option }

  /** The `switch (currentOption)` on a value token. */
  function Dispatch(o: Oracle, names: seq<string>, cfg: Config, option: string, value: string): (r: Result<Config, string>)
    ensures r.Ok? ==> option in Options && cfg.flags <= r.value.flags
    ensures option !in Options ==> r == Err(UnsupportedArgument(option))
    ensures option == "-c" ==> r == Ok(cfg.(pattern := value))
    ensures option == "-d" ==> (r.Ok? <==> AllKnown(Split(value, ',')))
    ensures option == "-d" && r.Ok? ==> r.value == cfg.(flags := ApplyValue(value, cfg.flags).value)
    ensures option == "-d" && r.Err? ==> FirstUnknownReported(Split(value, ','), r.error)
    ensures option == "-o" ==> (r.Ok? <==> IsDirectory(o, Trim(value)))
    ensures option == "-o" && r.Ok? ==> r.value == cfg.(outDir := Some(Trim(value)))
    ensures option == "-o" && r.Err? ==> r.error == "Directory doesn't exist " + Trim(value)
    ensures option == "-w" ==> (r.Ok? <==> DistinctKeys(names) && Trim(value) in Keys(names))
    ensures option == "-w" && r.Ok? ==>
              && r.value.writer.Some? && r.value.writer.value in names
              && Key(r.value.writer.value) == Trim(value) && r.value == cfg.(writer := r.value.writer)
    ensures option == "-w" && r.Err? ==> r.error == "Writer " + Trim(value) + " not found"
  {
    match option
    case "-c" => Ok(cfg.(pattern := value))
    case "-d" =>
      (match ApplyValue(value, cfg.flags)
       case Ok(f) => Ok(cfg.(flags := f))
       case Err(m) => Err(m))
    case "-o" =>
      var dirName := Trim(value);
      if IsDirectory(o, dirName) then Ok(cfg.(outDir := Some(dirName)))
      else Err("Directory doesn't exist " + dirName)
    case "-w" =>
      var writerName := Trim(value);
      (match Lookup(names, writerName)
       case Some(w) => Ok(cfg.(writer := Some(w)))
       case None => Err("Writer " + writerName + " not found"))
    case _ => Err(UnsupportedArgument(option))
  }

  /** How a positional token is treated, by its lower-cased extension. */
  datatype Kind = DexInput | ApkInput | Ignored

  function Classify(arg: string): Kind {
    var ext := ToLower(Extension(arg));
    if ext == ".dex" then DexInput else if ext == ".apk" then ApkInput else Ignored
  }

  function NotFound(arg: string): string { "Couldn't file file " + arg }

  function NoClassesDex(arg: string): string { "No classes.dex in " + arg }

  /** Resolution of one positional token against the file system. */
  function Positional(o: Oracle, s: Scan, arg: string): (r: Scan)
    ensures r.mode == s.mode && r.config == s.config
    ensures s.dexFiles <= r.dexFiles && s.tempFiles <= r.tempFiles && s.apkFiles <= r.apkFiles
    ensures Classify(arg) == Ignored ==> r == s
    ensures Classify(arg) == DexInput && FileExists(o, arg) ==>
      r == s.(dexFiles := s.dexFiles + [arg])
    ensures Classify(arg) == ApkInput && FileExists(o, arg) && HasClassesDex(o, arg) ==>
      var t := TempName(|s.tempFiles|);
      r == s.(dexFiles := s.dexFiles + [t], tempFiles := s.tempFiles + [t], apkFiles := s.apkFiles + [arg])
    ensures Classify(arg) != Ignored && !FileExists(o, arg) ==>
      r == s.(reports := s.reports + [NotFound(arg)])
    ensures Classify(arg) == ApkInput && FileExists(o, arg) && !HasClassesDex(o, arg) ==>
      r == s.(reports := s.reports + [NoClassesDex(arg)])
  {
    match Classify(arg)
    case DexInput =>
      if FileExists(o, arg) then s.(dexFiles := s.dexFiles + [arg])
      else s.(reports := s.reports + [NotFound(arg)])
    case ApkInput =>
      if !FileExists(o, arg) then s.(reports := s.reports + [NotFound(arg)])
      else if HasClassesDex(o, arg) then
        var t := TempName(|s.tempFiles|);
        s.(dexFiles := s.dexFiles + [t], tempFiles := s.tempFiles + [t], apkFiles := s.apkFiles + [arg])
      else s.(reports := s.reports + [NoClassesDex(arg)])
    case Ignored => s
  }

  /** One iteration of the `foreach (var arg in args)` loop. */
  function Step(o: Oracle, names: seq<string>, s: Scan, arg: string): (r: Result<Scan, Fatal>)
    ensures r.Err? <==> s.mode.AwaitingValue? && Dispatch(o, names, s.config, s.mode.option, arg).Err?
    ensures r.Err? ==> r.error == Fatal(Dispatch(o, names, s.config, s.mode.option, arg).error, s.tempFiles)
    ensures r.Ok? && StartsWith(arg, "-") ==> r.value.mode == AwaitingValue(arg)
    ensures r.Ok? && !StartsWith(arg, "-") ==> r.value.mode == Ready
    ensures r.Ok? ==> s.config.flags <= r.value.config.flags
    ensures r.Ok? ==> s.dexFiles <= r.value.dexFiles && s.tempFiles <= r.value.tempFiles && s.apkFiles <= r.value.apkFiles
  {
    var dispatched :=
      match s.mode
      case Ready => Ok(s)
      case AwaitingValue(option) =>
        (match Dispatch(o, names, s.config, option, arg)
         case Ok(cfg) => Ok(s.(mode := Ready, config := cfg))
         case Err(m) => Err(Fatal(m, s.tempFiles)));
    match dispatched
    case Err(f) => Err(f)
    case Ok(s1) =>
      if StartsWith(arg, "-") then Ok(s1.(mode := AwaitingValue(arg)))
      else Ok(Positional(o, s1, arg))
  }

  /** The temporary-looking entries of an input list, in order. */
  function TempEntries(inputs: seq<string>): seq<string> {
    Filter(inputs, LooksTemporary)
  }

  /**
   * The three lists stay in step: the k-th temporary file is the k-th one
   * allocated, it was extracted from the k-th archive argument, and the
   * temporary-looking inputs are exactly the temporary files, in order.
   */
  predicate InStep(s: Scan) {
    && |s.tempFiles| == |s.apkFiles|
    && AllocatedInOrder(s.tempFiles)
    && TempEntries(s.dexFiles) == s.tempFiles
  }

  /** Scanner states that can be reached from `Start`. */
  predicate Reachable(s: Scan) {
    InStep(s) && ClassName in s.config.flags
  }

  lemma DirectInputKeepsInStep(s: Scan, arg: string)
    requires InStep(s) && Classify(arg) == DexInput
    ensures InStep(s.(dexFiles := s.dexFiles + [arg]))
  {
    DexInputNotTemporary(arg);
    FilterSnoc(s.dexFiles, arg, LooksTemporary);
  }

  /** The k-th temporary file is the k-th name allocated. */
  predicate AllocatedInOrder(temps: seq<string>) {
    forall k :: 0 <= k < |temps| ==> temps[k] == TempName(k)
  }

  lemma AllocateNext(temps: seq<string>)
    requires AllocatedInOrder(temps)
    ensures AllocatedInOrder(temps + [TempName(|temps|)])
  {
  }

  lemma ExtractionKeepsInStep(s: Scan, arg: string)
    requires InStep(s)
    ensures var t := TempName(|s.tempFiles|);
      InStep(s.(dexFiles := s.dexFiles + [t], tempFiles := s.tempFiles + [t], apkFiles := s.apkFiles + [arg]))
  {
    var k := |s.tempFiles|;
    var t := TempName(k);
    TempNameLooksTemporary(k);
    FilterSnoc(s.dexFiles, t, LooksTemporary);
    AllocateNext(s.tempFiles);
  }

  lemma PositionalKeepsInStep(o: Oracle, s: Scan, arg: string)
    requires InStep(s)
    ensures InStep(Positional(o, s, arg))
  {
    match Classify(arg)
    case DexInput =>
      if FileExists(o, arg) { DirectInputKeepsInStep(s, arg); }
    case ApkInput =>
      if FileExists(o, arg) && HasClassesDex(o, arg) { ExtractionKeepsInStep(s, arg); }
    case Ignored =>
  }

  lemma StepKeepsReachable(o: Oracle, names: seq<string>, s: Scan, arg: string)
    requires Reachable(s)
    requires Step(o, names, s, arg).Ok?
    ensures Reachable(Step(o, names, s, arg).value)
  {
    if s.mode.AwaitingValue? {
      var cfg := Dispatch(o, names, s.config, s.mode.option, arg).value;
      PositionalKeepsInStep(o, s.(mode := Ready, config := cfg), arg);
    } else {
      PositionalKeepsInStep(o, s, arg);
    }
  }

  /** The writer chosen with `-w`, if any, is one of the registered writers. */
  predicate WriterRegistered(names: seq<string>, s: Scan) {
    s.config.writer.Some? ==> s.config.writer.value in names
  }

  /** Only `-w` changes the writer, and only to a registered one. */
  lemma StepKeepsWriterRegistered(o: Oracle, names: seq<string>, s: Scan, arg: string)
    requires WriterRegistered(names, s)
    requires Step(o, names, s, arg).Ok?
    ensures WriterRegistered(names, Step(o, names, s, arg).value)
  {
    if s.mode.AwaitingValue? {
      var cfg := Dispatch(o, names, s.config, s.mode.option, arg).value;
      assert cfg.writer == s.config.writer || cfg.writer.value in names;
    }
  }

  function Then(o: Oracle, names: seq<string>, r: Result<Scan, Fatal>, t: string): Result<Scan, Fatal> {
    match r
    case Err(f) => Err(f)
    case Ok(s1) => Step(o, names, s1, t)
  }

  /** The whole argument loop, as a left fold of `Step` from `Start`; a fatal `Stop` ends it. */
  function ScanArgs(o: Oracle, names: seq<string>, args: seq<string>): (r: Result<Scan, Fatal>)
    ensures r.Ok? ==> Reachable(r.value)
    ensures r.Ok? ==> WriterRegistered(names, r.value)
    ensures |args| == 0 ==> r == Ok(Start)
    decreases |args|
  {
    if |args| == 0 then
      assert InStep(Start);
      Ok(Start)
    else
      var before := ScanArgs(o, names, args[..|args| - 1]);
      var r := Then(o, names, before, args[|args| - 1]);
      if before.Ok? && r.Ok? then
        StepKeepsReachable(o, names, before.value, args[|args| - 1]);
        StepKeepsWriterRegistered(o, names, before.value, args[|args| - 1]);
        r
      else r
  }

  /** Scanning `args + [t]` is scanning `args`, then one more iteration. */
  lemma ScanSnoc(o: Oracle, names: seq<string>, args: seq<string>, t: string)
    ensures ScanArgs(o, names, args + [t]) == Then(o, names, ScanArgs(o, names, args), t)
  {
    assert (args + [t])[..|args|] == args;
  }

  /**
   * `r` continues `s`: the display flags only grow, the three lists only get
   * longer, and a fatal stop leaks at least the temporary files `s` holds.
   */
  predicate Grows(s: Scan, r: Result<Scan, Fatal>) {
    match r
    case Ok(v) =>
      && s.config.flags <= v.config.flags
      && s.dexFiles <= v.dexFiles && s.tempFiles <= v.tempFiles && s.apkFiles <= v.apkFiles
    case Err(f) => s.tempFiles <= f.leaked
  }

  lemma GrowsTransitive(s: Scan, mid: Scan, r: Result<Scan, Fatal>)
    requires Grows(s, Ok(mid)) && Grows(mid, r)
    ensures Grows(s, r)
  {
  }

  lemma ThenGrows(o: Oracle, names: seq<string>, s: Scan, mid: Result<Scan, Fatal>, t: string)
    requires Grows(s, mid)
    ensures Grows(s, Then(o, names, mid, t))
  {
    if mid.Ok? {
      StepGrows(o, names, mid.value, t);
      GrowsTransitive(s, mid.value, Step(o, names, mid.value, t));
    }
  }

  /** Over a scan of a prefix that has not stopped, the rest of the arguments continue it. */
  lemma {:induction false} ScanGrows(o: Oracle, names: seq<string>, args: seq<string>, n: nat)
    requires n <= |args| && ScanArgs(o, names, args[..n]).Ok?
    ensures Grows(ScanArgs(o, names, args[..n]).value, ScanArgs(o, names, args))
    decreases |args|
  {
    var s := ScanArgs(o, names, args[..n]).value;
    if n == |args| {
      assert args[..n] == args;
    } else {
      var init := args[..|args| - 1];
      assert init[..n] == args[..n];
      ScanGrows(o, names, init, n);
      ThenGrows(o, names, s, ScanArgs(o, names, init), args[|args| - 1]);
    }
  }

  /**
   * A fatal stop happens at one argument `args[n]`: the scan of the arguments
   * before it succeeded, and the stop leaks exactly the temporary files that
   * scan extracted, one per archive, allocated in order.
   */
  lemma {:induction false} StopLeaksTemporaries(o: Oracle, names: seq<string>, args: seq<string>) returns (n: nat)
    requires ScanArgs(o, names, args).Err?
    ensures n < |args| && ScanArgs(o, names, args[..n]).Ok?
    ensures ScanArgs(o, names, args) == Step(o, names, ScanArgs(o, names, args[..n]).value, args[n])
    ensures ScanArgs(o, names, args).error.leaked == ScanArgs(o, names, args[..n]).value.tempFiles
    ensures |ScanArgs(o, names, args).error.leaked| == |ScanArgs(o, names, args[..n]).value.apkFiles|
    ensures AllocatedInOrder(ScanArgs(o, names, args).error.leaked)
    decreases |args|
  {
    var init := args[..|args| - 1];
    var before := ScanArgs(o, names, init);
    if before.Err? {
      n := StopLeaksTemporaries(o, names, init);
      assert init[..n] == args[..n];
      assert init[n] == args[n];
    } else {
      n := |args| - 1;
      assert args[..n] == init;
      StepGrows(o, names, before.value, args[n]);
    }
  }

  lemma StepGrows(o: Oracle, names: seq<string>, s: Scan, t: string)
    ensures Grows(s, Step(o, names, s, t))
    ensures Step(o, names, s, t).Err? ==> Step(o, names, s, t).error.leaked == s.tempFiles
  {
  }

  /**
   * A value token is dispatched to the pending option and then treated as
   * a positional argument too: `-c a.dex` both sets the pattern and adds
   * `a.dex` as an input.
   */
  lemma ValueTokenReexamined(o: Oracle, names: seq<string>, s: Scan, option: string, arg: string)
    requires s.mode == AwaitingValue(option) && !StartsWith(arg, "-")
    requires Dispatch(o, names, s.config, option, arg).Ok?
    ensures Step(o, names, s, arg) ==
      Ok(Positional(o, s.(mode := Ready, config := Dispatch(o, names, s.config, option, arg).value), arg))
  {
  }

  /** Two tokens, an option and a value: the value meets the pending option. */
  lemma OptionThenValue(o: Oracle, names: seq<string>, option: string, value: string)
    requires StartsWith(option, "-")
    ensures ScanArgs(o, names, [option, value]) == Step(o, names, Start.(mode := AwaitingValue(option)), value)
  {
    ScanSnoc(o, names, [], option);
    assert [] + [option] == [option];
    ScanSnoc(o, names, [option], value);
    assert [option] + [value] == [option, value];
  }

  /** A lone archive holding `classes.dex` is extracted to the first temporary file, which becomes the only input. */
  lemma SingleArchiveScan(o: Oracle, names: seq<string>, apk: string)
    requires !StartsWith(apk, "-")
    requires Classify(apk) == ApkInput && FileExists(o, apk) && HasClassesDex(o, apk)
    ensures ScanArgs(o, names, [apk]) ==
      Ok(Start.(dexFiles := [TempName(0)], tempFiles := [TempName(0)], apkFiles := [apk]))
  {
    ScanSnoc(o, names, [], apk);
    assert [] + [apk] == [apk];
    assert Step(o, names, Start, apk) == Ok(Positional(o, Start, apk));
  }

  /** `-w` naming no registered writer stops the scan before any archive is extracted. */
  lemma UnknownWriterFatal(o: Oracle, names: seq<string>, value: string)
    requires !StartsWith(value, "-") && Trim(value) !in Keys(names)
    ensures ScanArgs(o, names, ["-w", value]) == Err(Fatal("Writer " + Trim(value) + " not found", []))
  {
    UnknownWriterRejected(o, names, Start.config, value);
    RejectedValueStops(o, names, "-w", value, "Writer " + Trim(value) + " not found");
  }

  /** An option whose first value is rejected stops the scan with that message, leaking nothing. */
  lemma RejectedValueStops(o: Oracle, names: seq<string>, option: string, value: string, message: string)
    requires StartsWith(option, "-")
    requires Dispatch(o, names, Start.config, option, value) == Err(message)
    ensures ScanArgs(o, names, [option, value]) == Err(Fatal(message, []))
  {
    OptionThenValue(o, names, option, value);
  }

  /** `-w` with a value that is no registry key fails with "Writer ... not found". */
  lemma UnknownWriterRejected(o: Oracle, names: seq<string>, cfg: Config, value: string)
    requires Trim(value) !in Keys(names)
    ensures Dispatch(o, names, cfg, "-w", value) == Err("Writer " + Trim(value) + " not found")
  {
  }

  /**
   * `-c x.dex` with `x.dex` present: the token both becomes the class
   * pattern and is added as an input.
   */
  lemma PatternValueIsAlsoInput(o: Oracle, names: seq<string>, arg: string)
    requires Classify(arg) == DexInput && FileExists(o, arg) && !StartsWith(arg, "-")
    ensures ScanArgs(o, names, ["-c", arg]).Ok?
    ensures ScanArgs(o, names, ["-c", arg]).value.config.pattern == arg
    ensures ScanArgs(o, names, ["-c", arg]).value.dexFiles == [arg]
  {
    OptionThenValue(o, names, "-c", arg);
    ValueTokenReexamined(o, names, Start.(mode := AwaitingValue("-c")), "-c", arg);
  }

  /** An unknown option is accepted as a token and left waiting for its value. */
  lemma UnsupportedOptionPending(o: Oracle, names: seq<string>, option: string)
    requires StartsWith(option, "-")
    ensures ScanArgs(o, names, [option]) == Ok(Start.(mode := AwaitingValue(option)))
  {
    ScanSnoc(o, names, [], option);
    assert [] + [option] == [option];
  }

  /** An unknown option is rejected only when its value arrives, whatever that value is. */
  lemma UnsupportedOptionRejectedAtValue(o: Oracle, names: seq<string>, option: string, value: string)
    requires StartsWith(option, "-") && option !in Options
    ensures ScanArgs(o, names, [option, value]) == Err(Fatal(UnsupportedArgument(option), []))
  {
    RejectedValueStops(o, names, option, value, UnsupportedArgument(option));
  }

  /** An option as the last token leaves every setting and list as it was. */
  lemma TrailingOptionDropped(o: Oracle, names: seq<string>, args: seq<string>, option: string)
    requires StartsWith(option, "-")
    requires ScanArgs(o, names, args).Ok? && ScanArgs(o, names, args).value.mode == Ready
    ensures ScanArgs(o, names, args + [option]) == Ok(ScanArgs(o, names, args).value.(mode := AwaitingValue(option)))
  {
    ScanSnoc(o, names, args, option);
  }
}

=== FILE: class_filter.dfy ===
/**
 * The `-c` class filter: the pattern becomes the regular expression
 * `"^" + pattern.Replace("*", ".*") + "$"` and a class is shown when that
 * expression matches its whole name (dedex/Main.cs lines 156 and 178).
 *
 * Only patterns whose characters are literals, `.` and `*` are modelled.
 * The `.` is not escaped by the source, so it matches any one character.
 */
module ClassFilter {

  /** One element of the compiled expression: a literal, `.` or `.*`. */
  datatype Atom = Lit(c: char) | AnyChar | AnyRun

  /** Characters that would act as regular-expression operators other than `.` and `*`. */
  const Operators: set<char> := {'$', '^', '?', '+', '[', ']', '(', ')', '{', '}', '|', '\\'}

  /** A pattern the model covers: no operator besides `.` and `*`. */
  predicate PlainPattern(p: string) {
    forall i :: 0 <= i < |p| ==> p[i] !in Operators
  }

  /** `pattern.Replace("*", ".*")`. */
  function ExpandStars(p: string): (r: string)
    ensures |r| >= |p|
  {
    if |p| == 0 then ""
    else (if p[0] == '*' then ".*" else [p[0]]) + ExpandStars(p[1..])
  }

  /**
   * How the regular-expression engine reads the expanded text: `.*` is a run
   * of any characters, a lone `.` is any one character, anything else is
   * itself. After `ExpandStars` every `*` follows a `.`, so no other
   * quantifier can arise.
   */
  function ParseRegex(rx: string): seq<Atom>
    decreases |rx|
  {
    if |rx| == 0 then []
    else if rx[0] == '.' && |rx| > 1 && rx[1] == '*' then [AnyRun] + ParseRegex(rx[2..])
    else if rx[0] == '.' then [AnyChar] + ParseRegex(rx[1..])
    else [Lit(rx[0])] + ParseRegex(rx[1..])
  }

  /** The compiled filter, as the source builds it. */
  function Compile(p: string): seq<Atom> {
    ParseRegex(ExpandStars(p))
  }

  /** Each pattern character as one atom: `*` a run, `.` any one character, any other character itself. */
  function Translate(p: string): (r: seq<Atom>)
    ensures |r| == |p|
    ensures forall i :: 0 <= i < |p| ==>
      r[i] == (if p[i] == '*' then AnyRun else if p[i] == '.' then AnyChar else Lit(p[i]))
  {
    if |p| == 0 then []
    else [if p[0] == '*' then AnyRun else if p[0] == '.' then AnyChar else Lit(p[0])] + Translate(p[1..])
  }

  /** Expanding `*` to `.*` and reading the result back gives one atom per pattern character. */
  lemma {:induction false} CompileIsTranslate(p: string)
    ensures Compile(p) == Translate(p)
    decreases |p|
  {
    if |p| > 0 {
      CompileIsTranslate(p[1..]);
      var rest := ExpandStars(p[1..]);
      if p[0] == '*' {
        assert ExpandStars(p) == ".*" + rest;
        assert (".*" + rest)[2..] == rest;
      } else {
        assert ExpandStars(p) == [p[0]] + rest;
        assert ([p[0]] + rest)[1..] == rest;
        if p[0] == '.' {
          // a '.' of the pattern is never followed by a '*' of the expansion
          assert |rest| > 0 ==> rest[0] == '.' || rest[0] == p[1];
          assert |rest| > 0 ==> rest[0] != '*' by {
            if |rest| > 0 && p[1] == '*' {
              assert rest == ".*" + ExpandStars(p[2..]) by { assert p[1..][1..] == p[2..]; }
            }
          }
        }
      }
      assert Translate(p) == [Translate(p)[0]] + Translate(p[1..]);
    }
  }

  /** Anchored match of the whole of `s` against `atoms`. */
  function MatchAtoms(atoms: seq<Atom>, s: string): bool
    decreases |atoms|, |s|
  {
    if |atoms| == 0 then |s| == 0
    else match atoms[0]
      case Lit(c) => |s| > 0 && s[0] == c && MatchAtoms(atoms[1..], s[1..])
      case AnyChar => |s| > 0 && MatchAtoms(atoms[1..], s[1..])
      case AnyRun => MatchAtoms(atoms[1..], s) || (|s| > 0 && MatchAtoms(atoms, s[1..]))
  }

  /** `classesToDisplay.IsMatch(fullClassName)` for a plain pattern. */
  function IsMatch(pattern: string, name: string): bool
    requires PlainPattern(pattern)
  {
    MatchAtoms(Compile(pattern), name)
  }

  /** Matching a concatenation, right to left: a split of `s` matched piecewise matches the whole. */
  lemma {:induction false} ConcatJoin(x: seq<Atom>, y: seq<Atom>, s: string, k: nat)
    requires k <= |s| && MatchAtoms(x, s[..k]) && MatchAtoms(y, s[k..])
    ensures MatchAtoms(x + y, s)
    decreases |x|, k
  {
    if |x| == 0 {
      assert x + y == y;
      assert k == 0 && s[k..] == s;
    } else {
      assert (x + y)[0] == x[0] && (x + y)[1..] == x[1..] + y;
      match x[0]
      case Lit(c) =>
        assert s[..k][1..] == s[1..][..k - 1] && s[k..] == s[1..][k - 1..];
        ConcatJoin(x[1..], y, s[1..], k - 1);
      case AnyChar =>
        assert s[..k][1..] == s[1..][..k - 1] && s[k..] == s[1..][k - 1..];
        ConcatJoin(x[1..], y, s[1..], k - 1);
      case AnyRun =>
        if MatchAtoms(x[1..], s[..k]) {
          ConcatJoin(x[1..], y, s, k);
        } else {
          assert s[..k][1..] == s[1..][..k - 1] && s[k..] == s[1..][k - 1..];
          ConcatJoin(x, y, s[1..], k - 1);
        }
    }
  }

  /** Matching a concatenation, left to right: a match of the whole splits into matches of the parts. */
  lemma {:induction false} ConcatSplit(x: seq<Atom>, y: seq<Atom>, s: string) returns (k: nat)
    requires MatchAtoms(x + y, s)
    ensures k <= |s| && MatchAtoms(x, s[..k]) && MatchAtoms(y, s[k..])
    decreases |x|, |s|
  {
    if |x| == 0 {
      assert x + y == y;
      k := 0;
      assert s[..0] == [] && s[0..] == s;
    } else {
      assert (x + y)[0] == x[0] && (x + y)[1..] == x[1..] + y;
      match x[0]
      case Lit(c) =>
        var k' := ConcatSplit(x[1..], y, s[1..]);
        k := k' + 1;
        assert s[..k][1..] == s[1..][..k'] && s[k..] == s[1..][k'..];
      case AnyChar =>
        var k' := ConcatSplit(x[1..], y, s[1..]);
        k := k' + 1;
        assert s[..k][1..] == s[1..][..k'] && s[k..] == s[1..][k'..];
      case AnyRun =>
        if MatchAtoms(x[1..] + y, s) {
          k := ConcatSplit(x[1..], y, s);
        } else {
          var k' := ConcatSplit(x, y, s[1..]);
          k := k' + 1;
          assert s[..k][1..] == s[1..][..k'] && s[k..] == s[1..][k'..];
        }
    }
  }

  /** A single run atom matches every string. */
  lemma {:induction false} RunMatchesAll(s: string)
    ensures MatchAtoms([AnyRun], s)
    decreases |s|
  {
    if |s| > 0 {
      RunMatchesAll(s[1..]);
    } else {
      assert [AnyRun][1..] == [];
    }
  }

  /** Without `*`, a pattern matches exactly the names of its length that agree on every non-`.` position. */
  lemma {:induction false} StarFreeMatch(atoms: seq<Atom>, s: string)
    requires forall i :: 0 <= i < |atoms| ==> atoms[i] != AnyRun
    ensures MatchAtoms(atoms, s) <==>
      |s| == |atoms| && forall i :: 0 <= i < |s| ==> (atoms[i] == AnyChar || atoms[i] == Lit(s[i]))
    decreases |atoms|
  {
    if |atoms| > 0 && |s| > 0 {
      var ta, ts := atoms[1..], s[1..];
      assert forall i :: 0 <= i < |ta| ==> ta[i] != AnyRun by {
        forall i | 0 <= i < |ta| ensures ta[i] != AnyRun { assert ta[i] == atoms[i + 1]; }
      }
      StarFreeMatch(ta, ts);
      if MatchAtoms(atoms, s) {
        forall i | 0 <= i < |s| ensures atoms[i] == AnyChar || atoms[i] == Lit(s[i]) {
          if i > 0 { assert ta[i - 1] == atoms[i] && ts[i - 1] == s[i]; }
        }
      }
      if |s| == |atoms| && forall i :: 0 <= i < |s| ==> (atoms[i] == AnyChar || atoms[i] == Lit(s[i])) {
        forall i | 0 <= i < |ts| ensures ta[i] == AnyChar || ta[i] == Lit(ts[i]) {
          assert ta[i] == atoms[i + 1] && ts[i] == s[i + 1];
        }
      }
    }
  }

  /** A pattern without `*`: only names of the same length, equal except at `.` positions. */
  lemma PatternWithoutStar(p: string, name: string)
    requires PlainPattern(p) && '*' !in p
    ensures IsMatch(p, name) <==>
      |name| == |p| && forall i :: 0 <= i < |p| ==> (p[i] == '.' || p[i] == name[i])
  {
    CompileIsTranslate(p);
    var t := Translate(p);
    assert forall i :: 0 <= i < |t| ==> t[i] != AnyRun by {
      forall i | 0 <= i < |t| ensures t[i] != AnyRun { assert p[i] != '*'; }
    }
    StarFreeMatch(t, name);
  }

  /** A pattern of literal characters only matches exactly one name: itself (no substring match). */
  lemma LiteralPattern(p: string, name: string)
    requires PlainPattern(p) && '*' !in p && '.' !in p
    ensures IsMatch(p, name) <==> name == p
  {
    PatternWithoutStar(p, name);
    if name == p {
    } else if |name| == |p| {
      var i :| 0 <= i < |p| && name[i] != p[i];
      assert p[i] != '.';
    }
  }

  /** `*` alone, the default pattern, matches every class. */
  lemma DefaultMatchesAll(name: string)
    ensures PlainPattern("*") && IsMatch("*", name)
  {
    CompileIsTranslate("*");
    assert Translate("*") == [AnyRun];
    RunMatchesAll(name);
  }

  /** A match of `x`, then a run, then `y`, splits into a matched prefix, any middle and a matched suffix. */
  lemma RunBetweenSplit(x: seq<Atom>, y: seq<Atom>, s: string) returns (i: nat, j: nat)
    requires MatchAtoms(x + ([AnyRun] + y), s)
    ensures i <= j <= |s| && MatchAtoms(x, s[..i]) && MatchAtoms(y, s[j..])
  {
    i := ConcatSplit(x, [AnyRun] + y, s);
    var rest := s[i..];
    var m := ConcatSplit([AnyRun], y, rest);
    assert rest[m..] == s[i + m..];
    j := i + m;
  }

  /** Conversely, a matched prefix and a matched suffix with anything between them match `x`, a run, `y`. */
  lemma RunBetweenJoin(x: seq<Atom>, y: seq<Atom>, s: string, i: nat, j: nat)
    requires i <= j <= |s| && MatchAtoms(x, s[..i]) && MatchAtoms(y, s[j..])
    ensures MatchAtoms(x + ([AnyRun] + y), s)
  {
    var rest := s[i..];
    RunMatchesAll(rest[..j - i]);
    assert rest[j - i..] == s[j..];
    ConcatJoin([AnyRun], y, rest, j - i);
    ConcatJoin(x, [AnyRun] + y, s, i);
  }

  /** A run atom between two atom lists: the match splits into a matched prefix, any middle and a matched suffix. */
  lemma RunBetween(x: seq<Atom>, y: seq<Atom>, s: string)
    ensures MatchAtoms(x + ([AnyRun] + y), s) <==>
      exists i, j :: 0 <= i <= j <= |s| && MatchAtoms(x, s[..i]) && MatchAtoms(y, s[j..])
  {
    if MatchAtoms(x + ([AnyRun] + y), s) {
      var i, j := RunBetweenSplit(x, y, s);
    }
    if exists i, j :: 0 <= i <= j <= |s| && MatchAtoms(x, s[..i]) && MatchAtoms(y, s[j..]) {
      var i, j :| 0 <= i <= j <= |s| && MatchAtoms(x, s[..i]) && MatchAtoms(y, s[j..]);
      RunBetweenJoin(x, y, s, i, j);
    }
  }

  /** Joining two plain patterns around a `*` gives a plain pattern. */
  lemma PlainAroundStar(p: string, q: string)
    requires PlainPattern(p) && PlainPattern(q)
    ensures PlainPattern(p + "*" + q)
  {
    var pq := p + "*" + q;
    forall k | 0 <= k < |pq| ensures pq[k] !in Operators {
      if k < |p| { assert pq[k] == p[k]; } else if k > |p| { assert pq[k] == q[k - |p| - 1]; }
    }
  }

  /** The per-character reading is compositional. */
  lemma {:induction false} TranslateAppend(a: string, b: string)
    ensures Translate(a + b) == Translate(a) + Translate(b)
    decreases |a|
  {
    if |a| == 0 {
      assert a + b == b;
    } else {
      assert (a + b)[1..] == a[1..] + b;
      TranslateAppend(a[1..], b);
    }
  }

  /** A pattern joined around a `*` compiles to a run between the compiled parts. */
  lemma CompileAroundStar(p: string, q: string)
    ensures Compile(p + "*" + q) == Compile(p) + ([AnyRun] + Compile(q))
  {
    var star := Translate("*");
    assert star == [AnyRun];
    calc {
      Compile(p + "*" + q);
      == { CompileIsTranslate(p + "*" + q); assert p + "*" + q == p + ("*" + q); }
      Translate(p + ("*" + q));
      == { TranslateAppend(p, "*" + q); }
      Translate(p) + Translate("*" + q);
      == { TranslateAppend("*", q); }
      Translate(p) + (star + Translate(q));
      == { CompileIsTranslate(p); CompileIsTranslate(q); }
      Compile(p) + ([AnyRun] + Compile(q));
    }
  }

  /**
   * A `*` between two plain patterns matches any (possibly empty) middle: the
   * name matches iff a prefix matches the left part and a suffix, starting no
   * earlier than the prefix ends, matches the right part.
   */
  lemma StarSplits(p: string, q: string, name: string)
    requires PlainPattern(p) && PlainPattern(q)
    ensures PlainPattern(p + "*" + q)
    ensures IsMatch(p + "*" + q, name) <==>
      exists i, j :: 0 <= i <= j <= |name| && IsMatch(p, name[..i]) && IsMatch(q, name[j..])
  {
    PlainAroundStar(p, q);
    CompileAroundStar(p, q);
    RunBetween(Compile(p), Compile(q), name);
  }

  /** A plain star-free pattern followed by `*` matches exactly the names that start with a match of it. */
  lemma TrailingStar(p: string, name: string)
    requires PlainPattern(p) && '*' !in p
    ensures PlainPattern(p + "*")
    ensures IsMatch(p + "*", name) <==> |p| <= |name| && IsMatch(p, name[..|p|])
  {
    assert PlainPattern("") && Compile("") == [];
    StarSplits(p, "", name);
    assert p + "*" + "" == p + "*";
    if IsMatch(p + "*", name) {
      var i, j :| 0 <= i <= j <= |name| && IsMatch(p, name[..i]) && IsMatch("", name[j..]);
      PatternWithoutStar(p, name[..i]);
    }
    if |p| <= |name| && IsMatch(p, name[..|p|]) {
      assert IsMatch("", name[|name|..]);
    }
  }

  /** `x.*` keeps every name of two or more characters that starts with `x`. */
  lemma PackageFilterKeeps(name: string)
    requires 2 <= |name| && name[0] == 'x'
    ensures PlainPattern("x.*") && IsMatch("x.*", name)
  {
    assert "x." + "*" == "x.*";
    TrailingStar("x.", name);
    PatternWithoutStar("x.", name[..2]);
  }

  /**
   * The filter `x.*` keeps `x.Y` and `x.Z`;
   * because `.` is unescaped it also keeps `xY`.
   */
  lemma PackageFilterExamples()
    ensures PlainPattern("x.*")
    ensures IsMatch("x.*", "x.Y") && IsMatch("x.*", "x.Z") && IsMatch("x.*", "xY")
  {
    PackageFilterKeeps("x.Y");
    PackageFilterKeeps("x.Z");
    PackageFilterKeeps("xY");
  }

  /** The filter `x.*` drops `q.R`: the match is anchored at the start. */
  lemma PackageFilterAnchored()
    ensures PlainPattern("x.*") && !IsMatch("x.*", "q.R")
  {
    assert "x." + "*" == "x.*";
    TrailingStar("x.", "q.R");
    PatternWithoutStar("x.", "q.");
  }

  /** The unescaped `.` lets `a.b` match `aXb`: it stands for any one character, not a literal dot. */
  lemma DotMatchesAnyCharacter()
    ensures PlainPattern("a.b") && IsMatch("a.b", "aXb")
  {
    PatternWithoutStar("a.b", "aXb");
  }
}

=== FILE: display_flags.dfy ===
/**
 * The `ClassDisplayOptions` flag set and the `-d` keyword presets that are
 * unioned into it (dedex/Main.cs lines 15 and 34-67).
 */
module DisplayFlags {
  import opened Outcomes
  import opened Text

  datatype Flag = ClassName | ClassAnnotations | ClassDetails | MethodAnnotations | Methods | Fields | OpCodes

  type Flags = set<Flag>

  /** The flag set a run starts with. */
  const Initial: Flags := {ClassName}

  const Everything: Flags := {ClassName, ClassAnnotations, ClassDetails, MethodAnnotations, Methods, Fields, OpCodes}

  /** The keywords `-d` understands, after lower-casing. */
  const Keywords: set<string> := {"classes", "methods", "fields", "opcodes", "all"}

  /** The flags a lower-cased keyword stands for; `None` for the `default:` branch. */
  function Preset(keyword: string): (r: Option<Flags>)
    ensures r.Some? <==> keyword in Keywords
    ensures r.Some? ==> r.value != {} && r.value <= Everything
  {
    match keyword
    case "classes" => Some({ClassAnnotations, ClassName, ClassDetails})
    case "methods" => Some({MethodAnnotations, Methods})
    case "fields" => Some({Fields})
    case "opcodes" => Some({Methods, OpCodes})
    case "all" => Some(Everything)
    case _ => None
  }

  /** An element of a `-d` list is recognised when its lower-cased form is a keyword. */
  predicate Known(element: string) {
    ToLower(element) in Keywords
  }

  /** Every element of a `-d` list is recognised. */
  predicate AllKnown(elements: seq<string>) {
    forall i :: 0 <= i < |elements| ==> Known(elements[i])
  }

  /** The flags one list element contributes (none for an unknown element). */
  function PresetOf(element: string): Flags {
    match Preset(ToLower(element))
    case Some(p) => p
    case None => {}
  }

  function UnsupportedMessage(element: string): string {
    "Unsupported display option " + element
  }

  /** `message` reports the first unknown element of `elements`, as the user typed it. */
  predicate FirstUnknownReported(elements: seq<string>, message: string) {
    exists i :: 0 <= i < |elements| && !Known(elements[i])
                && (forall j :: 0 <= j < i ==> Known(elements[j]))
                && message == UnsupportedMessage(elements[i])
  }

  /**
   * The inner `foreach` over the elements of one `-d` value: each known
   * element's preset is unioned in; the first unknown element is fatal and
   * its message quotes the element as the user typed it.
   */
  function ApplyElements(elements: seq<string>, flags: Flags): (r: Result<Flags, string>)
    ensures r.Ok? <==> AllKnown(elements)
    ensures r.Ok? ==> flags <= r.value
    ensures r.Ok? ==> forall x :: x in r.value <==> (x in flags || exists i :: 0 <= i < |elements| && x in PresetOf(elements[i]))
    ensures r.Err? ==> FirstUnknownReported(elements, r.error)
  {
    if |elements| == 0 then Ok(flags)
    else
      match Preset(ToLower(elements[0]))
      case None => Err(UnsupportedMessage(elements[0]))
      case Some(p) =>
        var r := ApplyElements(elements[1..], flags + p);
        assert forall i :: 0 < i < |elements| ==> elements[i] == elements[1..][i - 1];
        r
  }

  /** One `-d` value: split on ',' (empty pieces included) and applied element by element. */
  function ApplyValue(value: string, flags: Flags): (r: Result<Flags, string>)
    ensures r.Ok? <==> AllKnown(Split(value, ','))
    ensures r.Ok? ==> flags <= r.value
    ensures r.Err? ==> FirstUnknownReported(Split(value, ','), r.error)
  {
    ApplyElements(Split(value, ','), flags)
  }

  /** Every element of `e1` also occurring in `e2`: if `e2` is accepted, so is `e1`, with no more flags. */
  lemma ElementsSubsumed(e1: seq<string>, e2: seq<string>, flags: Flags)
    requires forall s :: s in e1 ==> s in e2
    requires ApplyElements(e2, flags).Ok?
    ensures ApplyElements(e1, flags).Ok?
    ensures ApplyElements(e1, flags).value <= ApplyElements(e2, flags).value
  {
    forall i | 0 <= i < |e1| ensures Known(e1[i]) {
      assert e1[i] in e2;
    }
    var r1, r2 := ApplyElements(e1, flags), ApplyElements(e2, flags);
    forall x | x in r1.value ensures x in r2.value {
      if x !in flags {
        var i :| 0 <= i < |e1| && x in PresetOf(e1[i]);
        assert e1[i] in e2;
        var j :| 0 <= j < |e2| && e2[j] == e1[i];
      }
    }
  }

  /** The result of a `-d` list depends on the SET of its elements, not their order or repetition. */
  lemma ElementOrderIrrelevant(e1: seq<string>, e2: seq<string>, flags: Flags)
    requires forall s :: s in e1 <==> s in e2
    ensures ApplyElements(e1, flags).Ok? == ApplyElements(e2, flags).Ok?
    ensures ApplyElements(e1, flags).Ok? ==> ApplyElements(e1, flags).value == ApplyElements(e2, flags).value
  {
    if ApplyElements(e2, flags).Ok? {
      ElementsSubsumed(e1, e2, flags);
      ElementsSubsumed(e2, e1, flags);
    } else if ApplyElements(e1, flags).Ok? {
      ElementsSubsumed(e2, e1, flags);
    }
  }

  /** Two `-d` tokens give the same flags in either order. */
  lemma ValuesCommute(v1: string, v2: string, flags: Flags)
    requires ApplyValue(v1, flags).Ok? && ApplyValue(v2, flags).Ok?
    ensures ApplyValue(v2, ApplyValue(v1, flags).value).Ok?
    ensures ApplyValue(v1, ApplyValue(v2, flags).value).Ok?
    ensures ApplyValue(v2, ApplyValue(v1, flags).value).value == ApplyValue(v1, ApplyValue(v2, flags).value).value
  {
    var a := ApplyValue(v1, flags).value;
    var b := ApplyValue(v2, flags).value;
    var ab := ApplyValue(v2, a).value;
    var ba := ApplyValue(v1, b).value;
    var s1, s2 := Split(v1, ','), Split(v2, ',');
    forall x ensures x in ab <==> x in ba {
      assert x in ab <==> x in a || exists j :: 0 <= j < |s2| && x in PresetOf(s2[j]);
      assert x in ba <==> x in b || exists i :: 0 <= i < |s1| && x in PresetOf(s1[i]);
    }
  }

  /** Every element of `all` is a keyword that turns on every flag. */
  lemma AllIsEverything(flags: Flags)
    ensures ApplyValue("all", flags) == Ok(Everything)
  {
    SplitWithoutSeparator("all", ',');
    assert ToLower("all") == "all";
    assert ApplyElements(["all"], flags) == ApplyElements([], flags + Everything);
    forall f: Flag ensures f in Everything {
      match f
      case ClassName => case ClassAnnotations => case ClassDetails => case MethodAnnotations =>
      case Methods => case Fields => case OpCodes =>
    }
    assert flags + Everything == Everything;
  }

  /** An empty element (from `-d ""`, or a trailing comma in `-d v,`) is fatal. */
  lemma EmptyElementIsFatal(value: string, flags: Flags)
    ensures ApplyValue("", flags) == Err(UnsupportedMessage(""))
    ensures ApplyValue(value + ",", flags).Err?
  {
    assert Split("", ',') == [""];
    assert ToLower("") == "";
    assert !Known("");
    SplitTrailingSeparator(value, ',');
  }
}

=== FILE: file_system.dfy ===
/**
 * The file system as the driver observes it: which paths are existing
 * files, which are directories, which archives hold a `classes.dex` entry,
 * and which containers the disassembler library can open (with the fully
 * qualified names of their classes, in the order it yields them). Temporary
 * extraction targets stand in for `Path.GetTempFileName`.
 */
module FileSystem {
  import opened Text

  datatype Oracle = Oracle(
    files: set<string>,
    dirs: set<string>,
    archivesWithDex: set<string>,
    containers: map<string, seq<string>>)

  /** `new FileInfo(path).Exists`. */
  predicate FileExists(o: Oracle, path: string) { path in o.files }

  /** `Directory.Exists(path)`. */
  predicate IsDirectory(o: Oracle, path: string) { path in o.dirs }

  /** The archive at `path` has an entry named `classes.dex`. */
  predicate HasClassesDex(o: Oracle, path: string) { path in o.archivesWithDex }

  /** The name of the k-th temporary file a run allocates. */
  function TempName(k: nat): (r: string)
    ensures EndsWith(r, ".tmp")
  {
    "/tmp/tmp" + Digits(k) + ".tmp"
  }

  /**
   * The test `Path.GetExtension(dexFile.Name).EndsWith("tmp")` on an input
   * path, read as: the path ends in "tmp" and its file name holds a '.'.
   * `LooksTemporaryIsExtensionTest` shows the two readings agree.
   */
  predicate LooksTemporary(path: string) {
    EndsWith(path, "tmp") && DotInFileName(path)
  }

  /** A path ends in "tmp" exactly when its file name does. */
  lemma TmpSuffixInFileName(path: string)
    ensures EndsWith(path, "tmp") <==> EndsWith(FileName(path), "tmp")
  {
    var name := FileName(path);
    if EndsWith(path, "tmp") {
      match LastIndexOf(path, Separator)
      case None =>
      case Some(k) =>
        assert k < |path| - 3 by {
          assert path[|path| - 3..][0] == 't' && path[|path| - 3..][1] == 'm' && path[|path| - 3..][2] == 'p';
        }
        assert name == path[k + 1..];
        assert name[|name| - 3..] == path[|path| - 3..];
    }
    if EndsWith(name, "tmp") {
      assert path[|path| - |name|..] == name;
      assert path[|path| - 3..] == name[|name| - 3..];
    }
  }

  /** A file name ending in "tmp" that holds a '.' has an extension ending in "tmp". */
  lemma TmpNameExtension(name: string)
    requires EndsWith(name, "tmp") && '.' in name && Separator !in name
    ensures EndsWith(Extension(name), "tmp")
  {
    LastIndexOfNone(name, '.');
    LastIndexOfNone(name, Separator);
    assert FileName(name) == name;
    var k := LastIndexOf(name, '.').value;
    assert k < |name| - 3 by {
      assert name[|name| - 3..][0] == 't' && name[|name| - 3..][1] == 'm' && name[|name| - 3..][2] == 'p';
    }
    var e := Extension(name);
    assert e == name[k..];
    assert e[|e| - 3..] == name[|name| - 3..];
  }

  /** An extension ending in "tmp" makes the file name end in "tmp" and hold a '.'. */
  lemma TmpExtensionName(path: string)
    requires EndsWith(Extension(path), "tmp")
    ensures EndsWith(FileName(path), "tmp") && '.' in FileName(path)
  {
    var name := FileName(path);
    var e := Extension(path);
    var k := LastIndexOf(name, '.').value;
    assert e == name[k..];
    assert name[|name| - 3..] == e[|e| - 3..];
  }

  /**
   * The recursive reading of the temporary-file test is the source's
   * extension test (`Extension` already reads the file name only, see
   * `ExtensionOfFileName`).
   */
  lemma LooksTemporaryIsExtensionTest(path: string)
    ensures LooksTemporary(path) <==> EndsWith(Extension(path), "tmp")
  {
    var name := FileName(path);
    DotInFileNameMeans(path);
    ExtensionOfFileName(path);
    TmpSuffixInFileName(path);
    FileNameIdempotent(path);
    if LooksTemporary(path) {
      TmpNameExtension(name);
    }
    if EndsWith(Extension(path), "tmp") {
      TmpExtensionName(path);
    }
  }

  /** Every allocated temporary file is recognised as one. */
  lemma TempNameLooksTemporary(k: nat)
    ensures LooksTemporary(TempName(k))
  {
    var stem := "/tmp/tmp" + Digits(k);
    assert TempName(k) == stem + "." + "tmp";
    ExtensionOfSuffix(stem, "tmp");
    ExtensionOfFileName(TempName(k));
    LooksTemporaryIsExtensionTest(TempName(k));
  }

  /** Temporary files allocated at different steps have different names. */
  lemma TempNamesDistinct(a: nat, b: nat)
    requires TempName(a) == TempName(b)
    ensures a == b
  {
    var da, db := Digits(a), Digits(b);
    var ta, tb := TempName(a), TempName(b);
    assert |da| == |db|;
    assert da == ta[8..8 + |da|] && db == tb[8..8 + |db|];
    DigitsInjective(a, b);
  }

  /** A path whose extension lower-cases to `.dex` is never mistaken for a temporary file. */
  lemma DexInputNotTemporary(path: string)
    requires ToLower(Extension(path)) == ".dex"
    ensures !LooksTemporary(path)
  {
    var e := Extension(path);
    ExtensionOfFileName(path);
    LooksTemporaryIsExtensionTest(path);
    assert |e| == 4 && LowerChar(e[3]) == 'x';
    assert e[1..] != "tmp" by {
      assert e[1..][2] == e[3];
    }
  }
}

=== FILE: orchestrator.dfy ===
/**
 * The processing half of `MainClass.Main` (dedex/Main.cs lines 141-197):
 * the empty-input check, the default writer, and, inside a `try` whose
 * `finally` deletes every temporary file, one pass per input that names it
 * (by the archive it came from when it is a temporary file), prints its
 * banner on the console and routes each matching class to its writer.
 */
module Orchestrator {
  import opened Outcomes
  import opened Text
  import opened DisplayFlags
  import opened ClassFilter
  import opened WriterRegistry
  import opened FileSystem
  import opened ArgScanner
  import opened OutputRouter
  import opened Seqs

  /** Where one class's rendering goes. */
  datatype Destination = Console | ToFile(path: string)

  /** What a run does that can be observed, in order. */
  datatype Event =
    | Banner(text: string)
    | CreateDirectory(path: string)
    | Render(className: string, flags: Flags, destination: Destination)

  /** The outcome of the processing loop: the events, and whether an input could not be opened. */
  datatype Processed = Processed(events: seq<Event>, failed: bool)

  /** The processing phase together with its `finally`. */
  datatype Run = Run(events: seq<Event>, failed: bool, deleted: seq<string>)

  /** How `Main` ends. */
  datatype Outcome =
    | Stopped(message: string, leaked: seq<string>)   // a `Stop` during scanning: exit 1
    | Usage(text: string)                             // `PrintHelp`: exit 1
    | Finished(writer: string, run: Run)              // the processing ran; `failed` means it threw

  // ---------------------------------------------------------------------
  // Display names

  /**
   * The name printed for each input, as the loop computes it: an input whose
   * file name has an extension ending in "tmp" takes the file name of the
   * next archive argument (`apkFiles[tempCount++]`); any other input is
   * shown under its own file name.
   */
  function Titles(inputs: seq<string>, apkFiles: seq<string>): (r: seq<string>)
    requires CountKept(inputs, LooksTemporary) <= |apkFiles|
    ensures |r| == |inputs|
  {
    Relabel(inputs, LooksTemporary, OwnTitle, ArchiveTitles(apkFiles), 0)
  }

  /** `Path.GetFileName(dexFile.Name)`. */
  function OwnTitle(input: string): string {
    FileName(FileName(input))
  }

  /** The file names of the archive arguments, in order. */
  function ArchiveTitles(apkFiles: seq<string>): (r: seq<string>)
    ensures |r| == |apkFiles|
    ensures forall k :: 0 <= k < |apkFiles| ==> r[k] == FileName(apkFiles[k])
  {
    seq(|apkFiles|, k requires 0 <= k < |apkFiles| => FileName(apkFiles[k]))
  }

  /** The temporary files a scan allocates are pairwise different. */
  lemma AllocatedDistinct(temps: seq<string>)
    requires AllocatedInOrder(temps)
    ensures Distinct(temps)
  {
    forall a, b | 0 <= a < b < |temps| ensures temps[a] != temps[b] {
      if temps[a] == temps[b] {
        TempNamesDistinct(a, b);
      }
    }
  }

  /** An input that is the k-th temporary file is shown under the k-th archive's file name. */
  lemma TemporaryTitle(inputs: seq<string>, temps: seq<string>, apkFiles: seq<string>, i: nat, k: nat)
    requires TempEntries(inputs) == temps && Distinct(temps)
    requires CountKept(inputs, LooksTemporary) <= |apkFiles|
    requires i < |inputs| && k < |temps| && inputs[i] == temps[k]
    ensures k < |apkFiles| && Titles(inputs, apkFiles)[i] == FileName(apkFiles[k])
  {
    FilterOnlyKept(inputs, k, LooksTemporary);
    KeptRank(inputs, temps, LooksTemporary, i, k);
    RelabelKept(inputs, LooksTemporary, OwnTitle, ArchiveTitles(apkFiles), 0, i);
  }

  /** An input that does not look temporary is shown under its own file name. */
  lemma DirectTitle(inputs: seq<string>, apkFiles: seq<string>, i: nat)
    requires CountKept(inputs, LooksTemporary) <= |apkFiles|
    requires i < |inputs| && !LooksTemporary(inputs[i])
    ensures Titles(inputs, apkFiles)[i] == FileName(inputs[i])
  {
    RelabelOwn(inputs, LooksTemporary, OwnTitle, ArchiveTitles(apkFiles), 0, i);
    FileNameIdempotent(inputs[i]);
  }

  /**
   * The display names of a finished scan: a temporary input that is the
   * k-th temporary file is shown under the file name of the k-th archive
   * argument, and every other input under its own file name.
   */
  lemma DisplayNamesFollowArchives(s: Scan)
    requires Reachable(s)
    ensures CountKept(s.dexFiles, LooksTemporary) <= |s.apkFiles|
    ensures forall i, k :: 0 <= i < |s.dexFiles| && 0 <= k < |s.tempFiles| && s.dexFiles[i] == s.tempFiles[k] ==>
      Titles(s.dexFiles, s.apkFiles)[i] == FileName(s.apkFiles[k])
    ensures forall i :: 0 <= i < |s.dexFiles| && s.dexFiles[i] !in s.tempFiles ==>
      Titles(s.dexFiles, s.apkFiles)[i] == FileName(s.dexFiles[i])
  {
    FilterLength(s.dexFiles, LooksTemporary);
    AllocatedDistinct(s.tempFiles);
    forall i, k | 0 <= i < |s.dexFiles| && 0 <= k < |s.tempFiles| && s.dexFiles[i] == s.tempFiles[k]
      ensures Titles(s.dexFiles, s.apkFiles)[i] == FileName(s.apkFiles[k])
    {
      TemporaryTitle(s.dexFiles, s.tempFiles, s.apkFiles, i, k);
    }
    forall i | 0 <= i < |s.dexFiles| && s.dexFiles[i] !in s.tempFiles
      ensures Titles(s.dexFiles, s.apkFiles)[i] == FileName(s.dexFiles[i])
    {
      if LooksTemporary(s.dexFiles[i]) {
        FilterKeepsAll(s.dexFiles, i, LooksTemporary);
      }
      DirectTitle(s.dexFiles, s.apkFiles, i);
    }
  }

  // ---------------------------------------------------------------------
  // Routing the classes of one input

  /** `classesToDisplay.IsMatch(fullClassName)`, for the patterns this model interprets. */
  predicate Selected(pattern: string, className: string) {
    PlainPattern(pattern) && IsMatch(pattern, className)
  }

  /** The class filter as a test on names. */
  function Selector(pattern: string): string -> bool {
    className => Selected(pattern, className)
  }

  /**
   * What one selected class produces: under `-o` its directory is created
   * and the class is written to its own file; otherwise it goes to the
   * console.
   */
  function ClassEvents(cfg: Config, extension: string, className: string): seq<Event> {
    match cfg.outDir
    case None => [Render(className, cfg.flags, Console)]
    case Some(dir) =>
      [CreateDirectory(ClassDirectory(dir, className, extension)),
       Render(className, cfg.flags, ToFile(ClassFile(dir, className, extension)))]
  }

  /**
   * Under `-o`: every rendering uses the configured flags, goes to its
   * class's own file, and comes right after the creation of that file's
   * directory.
   */
  predicate RoutedToFiles(dir: string, extension: string, flags: Flags, events: seq<Event>) {
    forall j :: 0 <= j < |events| && events[j].Render? ==>
      && events[j].flags == flags
      && events[j].destination == ToFile(ClassFile(dir, events[j].className, extension))
      && 0 < j && events[j - 1] == CreateDirectory(ClassDirectory(dir, events[j].className, extension))
  }

  /** Without `-o`: every event is a rendering to the console with the configured flags. */
  predicate RoutedToConsole(flags: Flags, events: seq<Event>) {
    forall j :: 0 <= j < |events| ==> events[j].Render? && events[j].flags == flags && events[j].destination == Console
  }

  lemma RoutedToFilesAppend(dir: string, extension: string, flags: Flags, a: seq<Event>, b: seq<Event>)
    requires RoutedToFiles(dir, extension, flags, a) && RoutedToFiles(dir, extension, flags, b)
    ensures RoutedToFiles(dir, extension, flags, a + b)
  {
    forall j | 0 <= j < |a + b| && (a + b)[j].Render?
      ensures (a + b)[j].flags == flags
      ensures (a + b)[j].destination == ToFile(ClassFile(dir, (a + b)[j].className, extension))
      ensures 0 < j && (a + b)[j - 1] == CreateDirectory(ClassDirectory(dir, (a + b)[j].className, extension))
    {
      if j >= |a| {
        assert (a + b)[j] == b[j - |a|];
        assert j - |a| > 0;
        assert (a + b)[j - 1] == b[j - 1 - |a|];
      } else {
        assert (a + b)[j] == a[j] && (a + b)[j - 1] == a[j - 1];
      }
    }
  }

  /** No event of the list is a banner. */
  predicate BannerFree(events: seq<Event>) {
    forall j :: 0 <= j < |events| ==> !events[j].Banner?
  }

  /** The routing a configuration asks for: to the console without `-o`, to class files with it. */
  predicate RoutedBy(cfg: Config, extension: string, events: seq<Event>) {
    && (cfg.outDir.None? ==> RoutedToConsole(cfg.flags, events))
    && (cfg.outDir.Some? ==> RoutedToFiles(cfg.outDir.value, extension, cfg.flags, events))
    && BannerFree(events)
  }

  lemma ClassEventsRouted(cfg: Config, extension: string, className: string)
    ensures RoutedBy(cfg, extension, ClassEvents(cfg, extension, className))
  {
  }

  lemma RoutedByAppend(cfg: Config, extension: string, a: seq<Event>, b: seq<Event>)
    requires RoutedBy(cfg, extension, a) && RoutedBy(cfg, extension, b)
    ensures RoutedBy(cfg, extension, a + b)
  {
    if cfg.outDir.Some? {
      RoutedToFilesAppend(cfg.outDir.value, extension, cfg.flags, a, b);
    }
    assert forall j :: 0 <= j < |a + b| ==> (a + b)[j] == if j < |a| then a[j] else b[j - |a|];
  }

  /**
   * The routing of a whole run, banners included: without `-o` every event
   * is a banner or a rendering to the console with the configured flags;
   * under `-o` every rendering uses the configured flags and goes to its
   * class's own file, right after that file's directory is created.
   */
  predicate RendersWith(cfg: Config, extension: string, events: seq<Event>) {
    && (cfg.outDir.None? ==> forall j :: 0 <= j < |events| ==>
          events[j].Banner? || (events[j].Render? && events[j].flags == cfg.flags && events[j].destination == Console))
    && (cfg.outDir.Some? ==> RoutedToFiles(cfg.outDir.value, extension, cfg.flags, events))
  }

  lemma RendersWithAppend(cfg: Config, extension: string, a: seq<Event>, b: seq<Event>)
    requires RendersWith(cfg, extension, a) && RendersWith(cfg, extension, b)
    ensures RendersWith(cfg, extension, a + b)
  {
    if cfg.outDir.Some? {
      RoutedToFilesAppend(cfg.outDir.value, extension, cfg.flags, a, b);
    }
    assert forall j :: 0 <= j < |a + b| ==> (a + b)[j] == if j < |a| then a[j] else b[j - |a|];
  }

  /**
   * The inner `foreach` over the classes of one container: each class the
   * filter selects is rendered, to its own file under `-o` and to the
   * console otherwise, and no banner is printed among them.
   */
  function RenderClasses(cfg: Config, extension: string, classes: seq<string>): (r: seq<Event>)
    ensures cfg.outDir.None? ==> RoutedToConsole(cfg.flags, r)
    ensures cfg.outDir.Some? ==> RoutedToFiles(cfg.outDir.value, extension, cfg.flags, r)
    ensures BannerFree(r)
    decreases |classes|
  {
    if |classes| == 0 then []
    else
      var last := classes[|classes| - 1];
      var init := RenderClasses(cfg, extension, classes[..|classes| - 1]);
      var tail := if Selected(cfg.pattern, last) then ClassEvents(cfg, extension, last) else [];
      ClassEventsRouted(cfg, extension, last);
      RoutedByAppend(cfg, extension, init, tail);
      init + tail
  }

  /** The names of the classes rendered, in order. */
  function Rendered(events: seq<Event>): seq<string> {
    if |events| == 0 then []
    else
      var last := events[|events| - 1];
      Rendered(events[..|events| - 1]) + (if last.Render? then [last.className] else [])
  }

  /** The banners printed, in order. */
  function Banners(events: seq<Event>): seq<string> {
    if |events| == 0 then []
    else
      var last := events[|events| - 1];
      Banners(events[..|events| - 1]) + (if last.Banner? then [last.text] else [])
  }

  lemma {:induction false} RenderedAppend(a: seq<Event>, b: seq<Event>)
    ensures Rendered(a + b) == Rendered(a) + Rendered(b)
    decreases |b|
  {
    if |b| == 0 {
      assert a + b == a;
    } else {
      var init := b[..|b| - 1];
      assert (a + b)[..|a + b| - 1] == a + init;
      RenderedAppend(a, init);
    }
  }

  lemma {:induction false} BannersAppend(a: seq<Event>, b: seq<Event>)
    ensures Banners(a + b) == Banners(a) + Banners(b)
    decreases |b|
  {
    if |b| == 0 {
      assert a + b == a;
    } else {
      var init := b[..|b| - 1];
      assert (a + b)[..|a + b| - 1] == a + init;
      BannersAppend(a, init);
    }
  }

  /** Events without banners print none. */
  lemma {:induction false} NoBanners(events: seq<Event>)
    requires BannerFree(events)
    ensures Banners(events) == []
    decreases |events|
  {
    if |events| > 0 {
      NoBanners(events[..|events| - 1]);
    }
  }

  /** One selected class yields exactly one rendering, of that class, and no banner. */
  lemma ClassEventsRender(cfg: Config, extension: string, className: string)
    ensures Rendered(ClassEvents(cfg, extension, className)) == [className]
    ensures Banners(ClassEvents(cfg, extension, className)) == []
  {
    var e := ClassEvents(cfg, extension, className);
    if cfg.outDir.None? {
      assert e[..0] == [];
    } else {
      assert e[..1][..0] == [];
      assert Rendered(e[..1]) == [] && Banners(e[..1]) == [];
    }
  }

  /** The classes rendered for one input are exactly the ones the filter selects, in container order. */
  lemma {:induction false} RenderedAreSelected(cfg: Config, extension: string, classes: seq<string>)
    ensures Rendered(RenderClasses(cfg, extension, classes)) == Filter(classes, Selector(cfg.pattern))
    decreases |classes|
  {
    if |classes| > 0 {
      var init, last := classes[..|classes| - 1], classes[|classes| - 1];
      RenderedAreSelected(cfg, extension, init);
      var tail := if Selected(cfg.pattern, last) then ClassEvents(cfg, extension, last) else [];
      RenderedAppend(RenderClasses(cfg, extension, init), tail);
      if Selected(cfg.pattern, last) {
        ClassEventsRender(cfg, extension, last);
      }
      assert Selector(cfg.pattern)(last) == Selected(cfg.pattern, last);
    }
  }

  // ---------------------------------------------------------------------
  // The processing loop

  /** How many inputs, from the front, the disassembler library can open. */
  function OpenPrefix(o: Oracle, inputs: seq<string>): (n: nat)
    ensures n <= |inputs|
    ensures forall i :: 0 <= i < n ==> inputs[i] in o.containers
    ensures n < |inputs| ==> inputs[n] !in o.containers
    decreases |inputs|
  {
    if |inputs| == 0 || inputs[0] !in o.containers then 0 else 1 + OpenPrefix(o, inputs[1..])
  }

  /** What one input produces: its banner on the console (not under `-o`), then its classes. */
  function InputEvents(cfg: Config, extension: string, title: string, classes: seq<string>): seq<Event> {
    (if cfg.outDir.None? then [Banner(BannerText(title))] else []) + RenderClasses(cfg, extension, classes)
  }

  /**
   * The outer `foreach` over the inputs. An input the library cannot open
   * throws, which ends the loop (the `finally` still runs); the run has
   * failed exactly when some input could not be opened.
   */
  function Process(o: Oracle, cfg: Config, extension: string, inputs: seq<string>, titles: seq<string>): (r: Processed)
    requires |titles| == |inputs|
    ensures r.failed <==> OpenPrefix(o, inputs) < |inputs|
    decreases |inputs|
  {
    if |inputs| == 0 then Processed([], false)
    else if inputs[0] !in o.containers then Processed([], true)
    else
      var rest := Process(o, cfg, extension, inputs[1..], titles[1..]);
      Processed(InputEvents(cfg, extension, titles[0], o.containers[inputs[0]]) + rest.events, rest.failed)
  }

  /** One input the library can open contributes its own events and nothing fails. */
  lemma ProcessSingle(o: Oracle, cfg: Config, extension: string, input: string, title: string)
    requires input in o.containers
    ensures Process(o, cfg, extension, [input], [title]) ==
      Processed(InputEvents(cfg, extension, title, o.containers[input]), false)
  {
    assert [input][1..] == [] && [title][1..] == [];
    assert InputEvents(cfg, extension, title, o.containers[input]) + [] ==
      InputEvents(cfg, extension, title, o.containers[input]);
  }

  /** The banner text of each title, in order. */
  function BannerTexts(titles: seq<string>): (r: seq<string>)
    ensures |r| == |titles|
    ensures forall i :: 0 <= i < |titles| ==> r[i] == BannerText(titles[i])
  {
    if |titles| == 0 then [] else [BannerText(titles[0])] + BannerTexts(titles[1..])
  }

  /** The classes the filter selects from each input, one input after the other. */
  function SelectedClasses(o: Oracle, pattern: string, inputs: seq<string>): seq<string>
    requires forall i :: 0 <= i < |inputs| ==> inputs[i] in o.containers
  {
    if |inputs| == 0 then []
    else Filter(o.containers[inputs[0]], Selector(pattern)) + SelectedClasses(o, pattern, inputs[1..])
  }

  /** Banners and renderings of one input. */
  lemma InputEventsShape(cfg: Config, extension: string, title: string, classes: seq<string>)
    ensures cfg.outDir.None? ==> Banners(InputEvents(cfg, extension, title, classes)) == [BannerText(title)]
    ensures cfg.outDir.Some? ==> Banners(InputEvents(cfg, extension, title, classes)) == []
    ensures Rendered(InputEvents(cfg, extension, title, classes)) == Filter(classes, Selector(cfg.pattern))
  {
    var head := if cfg.outDir.None? then [Banner(BannerText(title))] else [];
    var body := RenderClasses(cfg, extension, classes);
    BannersAppend(head, body);
    RenderedAppend(head, body);
    NoBanners(body);
    RenderedAreSelected(cfg, extension, classes);
    if cfg.outDir.None? {
      assert head[..0] == [];
    }
  }

  /** One opened input in front: its banner (on the console) comes first, then those of the rest. */
  lemma ProcessBannersCons(o: Oracle, cfg: Config, extension: string, inputs: seq<string>, titles: seq<string>)
    requires |titles| == |inputs| && |inputs| > 0 && inputs[0] in o.containers
    requires cfg.outDir.None? ==>
      Banners(Process(o, cfg, extension, inputs[1..], titles[1..]).events)
        == BannerTexts(titles[1..][..OpenPrefix(o, inputs[1..])])
    requires cfg.outDir.Some? ==> Banners(Process(o, cfg, extension, inputs[1..], titles[1..]).events) == []
    ensures cfg.outDir.None? ==>
      Banners(Process(o, cfg, extension, inputs, titles).events) == BannerTexts(titles[..OpenPrefix(o, inputs)])
    ensures cfg.outDir.Some? ==> Banners(Process(o, cfg, extension, inputs, titles).events) == []
  {
    var head := InputEvents(cfg, extension, titles[0], o.containers[inputs[0]]);
    var rest := Process(o, cfg, extension, inputs[1..], titles[1..]).events;
    ProcessCons(o, cfg, extension, inputs, titles);
    InputEventsShape(cfg, extension, titles[0], o.containers[inputs[0]]);
    BannersAppend(head, rest);
    var n := OpenPrefix(o, inputs);
    assert titles[..n][1..] == titles[1..][..n - 1];
  }

  /**
   * Without `-o` the run prints one banner per input it opened, in input
   * order, under that input's title; under `-o` it prints none.
   */
  lemma {:induction false} ProcessBanners(o: Oracle, cfg: Config, extension: string, inputs: seq<string>, titles: seq<string>)
    requires |titles| == |inputs|
    ensures cfg.outDir.None? ==>
      Banners(Process(o, cfg, extension, inputs, titles).events) == BannerTexts(titles[..OpenPrefix(o, inputs)])
    ensures cfg.outDir.Some? ==> Banners(Process(o, cfg, extension, inputs, titles).events) == []
    decreases |inputs|
  {
    if |inputs| > 0 && inputs[0] in o.containers {
      ProcessBanners(o, cfg, extension, inputs[1..], titles[1..]);
      ProcessBannersCons(o, cfg, extension, inputs, titles);
    } else {
      assert OpenPrefix(o, inputs) == 0 && Process(o, cfg, extension, inputs, titles).events == [];
      assert titles[..0] == [];
    }
  }

  /** An opened input in front contributes its own events, then the rest of the run follows. */
  lemma ProcessCons(o: Oracle, cfg: Config, extension: string, inputs: seq<string>, titles: seq<string>)
    requires |titles| == |inputs| && |inputs| > 0 && inputs[0] in o.containers
    ensures OpenPrefix(o, inputs) == 1 + OpenPrefix(o, inputs[1..])
    ensures Process(o, cfg, extension, inputs, titles).events ==
      InputEvents(cfg, extension, titles[0], o.containers[inputs[0]])
        + Process(o, cfg, extension, inputs[1..], titles[1..]).events
  {
  }

  /** The selected classes of an opened prefix: those of its first input, then those of the rest. */
  lemma SelectedCons(o: Oracle, pattern: string, inputs: seq<string>)
    requires |inputs| > 0 && inputs[0] in o.containers
    ensures OpenPrefix(o, inputs) == 1 + OpenPrefix(o, inputs[1..])
    ensures SelectedClasses(o, pattern, inputs[..OpenPrefix(o, inputs)]) ==
      Filter(o.containers[inputs[0]], Selector(pattern))
        + SelectedClasses(o, pattern, inputs[1..][..OpenPrefix(o, inputs[1..])])
  {
    var prefix := inputs[..OpenPrefix(o, inputs)];
    assert prefix[0] == inputs[0] && prefix[1..] == inputs[1..][..OpenPrefix(o, inputs[1..])];
  }

  /** One opened input in front: its selected classes come first, then those of the rest. */
  lemma ProcessRenderedCons(o: Oracle, cfg: Config, extension: string, inputs: seq<string>, titles: seq<string>)
    requires |titles| == |inputs| && |inputs| > 0 && inputs[0] in o.containers
    requires Rendered(Process(o, cfg, extension, inputs[1..], titles[1..]).events) ==
      SelectedClasses(o, cfg.pattern, inputs[1..][..OpenPrefix(o, inputs[1..])])
    ensures Rendered(Process(o, cfg, extension, inputs, titles).events) ==
      SelectedClasses(o, cfg.pattern, inputs[..OpenPrefix(o, inputs)])
  {
    var head := InputEvents(cfg, extension, titles[0], o.containers[inputs[0]]);
    var rest := Process(o, cfg, extension, inputs[1..], titles[1..]).events;
    ProcessCons(o, cfg, extension, inputs, titles);
    SelectedCons(o, cfg.pattern, inputs);
    RenderedAppend(head, rest);
    InputEventsShape(cfg, extension, titles[0], o.containers[inputs[0]]);
  }

  /** The run renders exactly the selected classes of the inputs it opened, in order. */
  lemma {:induction false} ProcessRendered(o: Oracle, cfg: Config, extension: string, inputs: seq<string>, titles: seq<string>)
    requires |titles| == |inputs|
    ensures Rendered(Process(o, cfg, extension, inputs, titles).events) ==
      SelectedClasses(o, cfg.pattern, inputs[..OpenPrefix(o, inputs)])
    decreases |inputs|
  {
    if |inputs| > 0 && inputs[0] in o.containers {
      ProcessRendered(o, cfg, extension, inputs[1..], titles[1..]);
      ProcessRenderedCons(o, cfg, extension, inputs, titles);
    } else {
      assert OpenPrefix(o, inputs) == 0 && Process(o, cfg, extension, inputs, titles).events == [];
      assert inputs[..0] == [];
    }
  }

  /** One input's events: its banner, if any, then its classes, routed as the configuration asks. */
  lemma InputEventsRendersWith(cfg: Config, extension: string, title: string, classes: seq<string>)
    ensures RendersWith(cfg, extension, InputEvents(cfg, extension, title, classes))
  {
    var head: seq<Event> := if cfg.outDir.None? then [Banner(BannerText(title))] else [];
    var body := RenderClasses(cfg, extension, classes);
    assert RendersWith(cfg, extension, head);
    assert RendersWith(cfg, extension, body);
    RendersWithAppend(cfg, extension, head, body);
  }

  /** Every input of the loop renders with the configured flags, to the destination `-o` selects. */
  lemma {:induction false} ProcessRendersWith(o: Oracle, cfg: Config, extension: string, inputs: seq<string>, titles: seq<string>)
    requires |titles| == |inputs|
    ensures RendersWith(cfg, extension, Process(o, cfg, extension, inputs, titles).events)
    decreases |inputs|
  {
    if |inputs| > 0 && inputs[0] in o.containers {
      ProcessRendersWith(o, cfg, extension, inputs[1..], titles[1..]);
      ProcessCons(o, cfg, extension, inputs, titles);
      InputEventsRendersWith(cfg, extension, titles[0], o.containers[inputs[0]]);
      RendersWithAppend(cfg, extension, InputEvents(cfg, extension, titles[0], o.containers[inputs[0]]),
        Process(o, cfg, extension, inputs[1..], titles[1..]).events);
    } else {
      assert Process(o, cfg, extension, inputs, titles).events == [];
    }
  }

  // ---------------------------------------------------------------------
  // The whole run

  /**
   * `MainClass.Main`: scan the arguments; a fatal stop ends the run with its
   * message; no input prints the usage text; otherwise the chosen (or first)
   * writer processes every input, and the `finally` deletes every temporary
   * file whether or not processing failed. `extension` is the chosen writer's
   * `GetExtension()`.
   */
  function Plan(o: Oracle, names: seq<string>, extension: string -> string, args: seq<string>): (r: Outcome)
    requires WellFormed(names)
    requires ScanArgs(o, names, args).Ok? ==> PlainPattern(ScanArgs(o, names, args).value.config.pattern)
    ensures r.Stopped? <==> ScanArgs(o, names, args).Err?
    ensures r.Stopped? ==> ScanArgs(o, names, args) == Err(Fatal(r.message, r.leaked))
    ensures r.Usage? <==> ScanArgs(o, names, args).Ok? && |ScanArgs(o, names, args).value.dexFiles| == 0
    ensures r.Usage? ==> r.text == HelpText(names)
    ensures r.Finished? ==> r.writer in names
    ensures r.Finished? && ScanArgs(o, names, args).value.config.writer.None? ==> r.writer == names[0]
    ensures r.Finished? && ScanArgs(o, names, args).value.config.writer.Some? ==>
      r.writer == ScanArgs(o, names, args).value.config.writer.value
  {
    match ScanArgs(o, names, args)
    case Err(f) => Stopped(f.message, f.leaked)
    case Ok(s) =>
      if |s.dexFiles| == 0 then Usage(HelpText(names))
      else
        var writer := Choose(names, s.config.writer);
        DisplayNamesFollowArchives(s);
        var p := Process(o, s.config, extension(writer), s.dexFiles, Titles(s.dexFiles, s.apkFiles));
        Finished(writer, Run(p.events, p.failed, s.tempFiles))
  }

  /** A scan with inputs runs them all under the chosen writer and then deletes its temporary files. */
  lemma PlanRuns(o: Oracle, names: seq<string>, extension: string -> string, args: seq<string>, s: Scan)
    requires WellFormed(names) && ScanArgs(o, names, args) == Ok(s)
    requires PlainPattern(s.config.pattern) && |s.dexFiles| > 0
    ensures CountKept(s.dexFiles, LooksTemporary) <= |s.apkFiles|
    ensures var writer := Choose(names, s.config.writer);
      var p := Process(o, s.config, extension(writer), s.dexFiles, Titles(s.dexFiles, s.apkFiles));
      Plan(o, names, extension, args) == Finished(writer, Run(p.events, p.failed, s.tempFiles))
  {
    DisplayNamesFollowArchives(s);
  }

  /**
   * A fatal stop exits before the `try`: the temporary files extracted by the
   * arguments before the failing one, `args[n]`, are left behind, one per
   * archive, each named like a temporary file.
   */
  lemma StopLeaksExtractions(o: Oracle, names: seq<string>, extension: string -> string, args: seq<string>) returns (n: nat)
    requires WellFormed(names)
    requires ScanArgs(o, names, args).Ok? ==> PlainPattern(ScanArgs(o, names, args).value.config.pattern)
    requires Plan(o, names, extension, args).Stopped?
    ensures n < |args| && ScanArgs(o, names, args[..n]).Ok?
    ensures Step(o, names, ScanArgs(o, names, args[..n]).value, args[n]) ==
      Err(Fatal(Plan(o, names, extension, args).message, Plan(o, names, extension, args).leaked))
    ensures Plan(o, names, extension, args).leaked == ScanArgs(o, names, args[..n]).value.tempFiles
    ensures |Plan(o, names, extension, args).leaked| == |ScanArgs(o, names, args[..n]).value.apkFiles|
    ensures forall j :: 0 <= j < |Plan(o, names, extension, args).leaked| ==>
      Plan(o, names, extension, args).leaked[j] == TempName(j) && LooksTemporary(TempName(j))
  {
    n := StopLeaksTemporaries(o, names, args);
    forall j | 0 <= j < |Plan(o, names, extension, args).leaked| ensures LooksTemporary(TempName(j)) {
      TempNameLooksTemporary(j);
    }
  }

  /**
   * Cleanup: when processing ran, an input is deleted exactly when it looks
   * like a temporary file, and only inputs are deleted; this holds whether or
   * not processing failed.
   */
  lemma CleanupDeletesExactlyTemporaries(o: Oracle, names: seq<string>, extension: string -> string, args: seq<string>)
    requires WellFormed(names)
    requires ScanArgs(o, names, args).Ok? ==> PlainPattern(ScanArgs(o, names, args).value.config.pattern)
    requires Plan(o, names, extension, args).Finished?
    ensures var s, deleted := ScanArgs(o, names, args).value, Plan(o, names, extension, args).run.deleted;
      && (forall i :: 0 <= i < |s.dexFiles| ==> (s.dexFiles[i] in deleted <==> LooksTemporary(s.dexFiles[i])))
      && (forall j :: 0 <= j < |deleted| ==> deleted[j] in s.dexFiles)
  {
    var s := ScanArgs(o, names, args).value;
    var deleted := Plan(o, names, extension, args).run.deleted;
    assert deleted == TempEntries(s.dexFiles);
    forall i | 0 <= i < |s.dexFiles| ensures s.dexFiles[i] in deleted <==> LooksTemporary(s.dexFiles[i]) {
      if LooksTemporary(s.dexFiles[i]) {
        FilterKeepsAll(s.dexFiles, i, LooksTemporary);
      }
      if s.dexFiles[i] in deleted {
        var k :| 0 <= k < |deleted| && deleted[k] == s.dexFiles[i];
        FilterOnlyKept(s.dexFiles, k, LooksTemporary);
      }
    }
    forall j | 0 <= j < |deleted| ensures deleted[j] in s.dexFiles {
      FilterKept(s.dexFiles, j, LooksTemporary);
    }
  }

  /**
   * What a finished run renders: the selected classes of every input it
   * opened, in order; it fails exactly when some input could not be opened.
   */
  lemma FinishedRunRenders(o: Oracle, names: seq<string>, extension: string -> string, args: seq<string>)
    requires WellFormed(names)
    requires ScanArgs(o, names, args).Ok? ==> PlainPattern(ScanArgs(o, names, args).value.config.pattern)
    requires Plan(o, names, extension, args).Finished?
    ensures var s, run := ScanArgs(o, names, args).value, Plan(o, names, extension, args).run;
      && (run.failed <==> OpenPrefix(o, s.dexFiles) < |s.dexFiles|)
      && Rendered(run.events) == SelectedClasses(o, s.config.pattern, s.dexFiles[..OpenPrefix(o, s.dexFiles)])
  {
    var s := ScanArgs(o, names, args).value;
    PlanRuns(o, names, extension, args, s);
    ProcessRendered(o, s.config, extension(Choose(names, s.config.writer)), s.dexFiles, Titles(s.dexFiles, s.apkFiles));
  }

  /**
   * How a finished run routes: every rendering carries the flags `-d` built;
   * without `-o` it goes to the console, and under `-o dir` the class
   * `a.b.C` goes to `dir/a/b/C` plus the extension of the writer the run
   * used.
   */
  lemma FinishedRunRouted(o: Oracle, names: seq<string>, extension: string -> string, args: seq<string>)
    requires WellFormed(names)
    requires ScanArgs(o, names, args).Ok? ==> PlainPattern(ScanArgs(o, names, args).value.config.pattern)
    requires Plan(o, names, extension, args).Finished?
    ensures RendersWith(ScanArgs(o, names, args).value.config, extension(Plan(o, names, extension, args).writer),
      Plan(o, names, extension, args).run.events)
  {
    var s := ScanArgs(o, names, args).value;
    PlanRuns(o, names, extension, args, s);
    ProcessRendersWith(o, s.config, extension(Choose(names, s.config.writer)), s.dexFiles, Titles(s.dexFiles, s.apkFiles));
  }

  /**
   * What a finished run prints between the renderings: without `-o` one
   * banner per opened input, in order, under its display name; under `-o`
   * none.
   */
  lemma FinishedRunBanners(o: Oracle, names: seq<string>, extension: string -> string, args: seq<string>)
    requires WellFormed(names)
    requires ScanArgs(o, names, args).Ok? ==> PlainPattern(ScanArgs(o, names, args).value.config.pattern)
    requires Plan(o, names, extension, args).Finished?
    ensures CountKept(ScanArgs(o, names, args).value.dexFiles, LooksTemporary) <= |ScanArgs(o, names, args).value.apkFiles|
    ensures var s, run := ScanArgs(o, names, args).value, Plan(o, names, extension, args).run;
      && (s.config.outDir.None? ==>
            Banners(run.events) == BannerTexts(Titles(s.dexFiles, s.apkFiles)[..OpenPrefix(o, s.dexFiles)]))
      && (s.config.outDir.Some? ==> Banners(run.events) == [])
  {
    var s := ScanArgs(o, names, args).value;
    PlanRuns(o, names, extension, args, s);
    ProcessBanners(o, s.config, extension(Choose(names, s.config.writer)), s.dexFiles, Titles(s.dexFiles, s.apkFiles));
  }

  /**
   * On the console, an input extracted from the k-th archive argument is
   * announced under that archive's file name, and a direct input under its
   * own file name.
   */
  lemma BannerNamesArchive(o: Oracle, names: seq<string>, extension: string -> string, args: seq<string>, i: nat)
    requires WellFormed(names)
    requires ScanArgs(o, names, args).Ok? ==> PlainPattern(ScanArgs(o, names, args).value.config.pattern)
    requires Plan(o, names, extension, args).Finished?
    requires ScanArgs(o, names, args).value.config.outDir.None?
    requires i < OpenPrefix(o, ScanArgs(o, names, args).value.dexFiles)
    ensures var s, run := ScanArgs(o, names, args).value, Plan(o, names, extension, args).run;
      && i < |Banners(run.events)|
      && (forall k :: 0 <= k < |s.tempFiles| && s.dexFiles[i] == s.tempFiles[k] ==>
            Banners(run.events)[i] == BannerText(FileName(s.apkFiles[k])))
      && (s.dexFiles[i] !in s.tempFiles ==> Banners(run.events)[i] == BannerText(FileName(s.dexFiles[i])))
  {
    var s := ScanArgs(o, names, args).value;
    FinishedRunBanners(o, names, extension, args);
    DisplayNamesFollowArchives(s);
    var n := OpenPrefix(o, s.dexFiles);
    assert Titles(s.dexFiles, s.apkFiles)[..n][i] == Titles(s.dexFiles, s.apkFiles)[i];
  }

  /** `-w` naming no registered writer stops the run with "Writer ... not found". */
  lemma UnknownWriterStops(o: Oracle, names: seq<string>, extension: string -> string, value: string)
    requires WellFormed(names) && !StartsWith(value, "-") && Trim(value) !in Keys(names)
    ensures ScanArgs(o, names, ["-w", value]).Err?
    ensures Plan(o, names, extension, ["-w", value]) == Stopped("Writer " + Trim(value) + " not found", [])
  {
    UnknownWriterFatal(o, names, value);
  }

  /** An option given as the last argument has no effect on the run. */
  lemma TrailingOptionIgnored(o: Oracle, names: seq<string>, extension: string -> string, args: seq<string>, option: string)
    requires WellFormed(names) && StartsWith(option, "-")
    requires ScanArgs(o, names, args).Ok? && ScanArgs(o, names, args).value.mode == Ready
    requires PlainPattern(ScanArgs(o, names, args).value.config.pattern)
    ensures ScanArgs(o, names, args + [option]).Ok?
    ensures PlainPattern(ScanArgs(o, names, args + [option]).value.config.pattern)
    ensures Plan(o, names, extension, args + [option]) == Plan(o, names, extension, args)
  {
    TrailingOptionDropped(o, names, args, option);
  }

  /**
   * A single archive argument holding `classes.dex`: the archive is
   * extracted to the first temporary file, announced under the archive's own
   * file name, all of its classes are printed with the default settings,
   * and the temporary file is deleted afterwards.
   */
  lemma SingleArchiveRun(o: Oracle, names: seq<string>, extension: string -> string, apk: string)
    requires WellFormed(names) && !StartsWith(apk, "-")
    requires Classify(apk) == ApkInput && FileExists(o, apk) && HasClassesDex(o, apk)
    requires TempName(0) in o.containers
    ensures ScanArgs(o, names, [apk]).Ok? && PlainPattern(ScanArgs(o, names, [apk]).value.config.pattern)
    ensures Plan(o, names, extension, [apk]) ==
      Finished(names[0], Run(
        [Banner(BannerText(FileName(apk)))] + RenderClasses(Defaults, extension(names[0]), o.containers[TempName(0)]),
        false,
        [TempName(0)]))
  {
    SingleArchiveScan(o, names, apk);
    var s := Start.(dexFiles := [TempName(0)], tempFiles := [TempName(0)], apkFiles := [apk]);
    DefaultMatchesAll("");
    PlanRuns(o, names, extension, [apk], s);
    TempNameLooksTemporary(0);
    TemporaryTitle(s.dexFiles, s.tempFiles, s.apkFiles, 0, 0);
    var titles := Titles(s.dexFiles, s.apkFiles);
    assert titles == [FileName(apk)];
    ProcessSingle(o, Defaults, extension(names[0]), TempName(0), FileName(apk));
  }
}

=== FILE: outcomes.dfy ===
/** Failure-carrying datatypes shared by the whole model. */
module Outcomes {

  /** A value that may be absent (the source's `null`). */
  datatype Option<+T> = None | Some(value: T)

  /** Either a value or an error; the error side models a fatal `Stop`. */
  datatype Result<+T, +E> = Ok(value: T) | Err(error: E)
}

=== FILE: output_router.dfy ===
/**
 * Where a rendered class goes (dedex/Main.cs lines 166-186): on the console
 * after a banner naming the input, or, with `-o`, into its own file under
 * the output directory, one directory level per package segment.
 */
module OutputRouter {
  import opened Text

  /**
   * The console banner: an empty line, the input's display name, a line of
   * `=` as long as the name, then `WriteLine('\n')`, which ends with an
   * empty line.
   */
  function BannerText(name: string): (r: string)
    ensures |r| == 2 * |name| + 4
    ensures r[0] == '\n' && r[|name| + 1] == '\n' && r[|r| - 2..] == "\n\n"
    ensures r[1..|name| + 1] == name
    ensures forall i :: |name| + 2 <= i < 2 * |name| + 2 ==> r[i] == '='
  {
    "\n" + name + "\n" + Repeat('=', |name|) + "\n\n"
  }

  /** Reads the display name back out of a banner. */
  function BannerTitle(banner: string): string
    requires |banner| >= 4 && |banner| % 2 == 0
  {
    banner[1..(|banner| - 4) / 2 + 1]
  }

  /** A banner names its input: reading it back gives the display name. */
  lemma BannerRoundTrip(name: string)
    ensures BannerTitle(BannerText(name)) == name
  {
  }

  /** Different inputs get different banners. */
  lemma BannerInjective(a: string, b: string)
    requires BannerText(a) == BannerText(b)
    ensures a == b
  {
    BannerRoundTrip(a);
    BannerRoundTrip(b);
  }

  /** `fullClassName.Replace('.', '/') + extension`: the class's path below the output directory. */
  function RelativeClassPath(className: string, extension: string): string {
    ReplaceChar(className, '.', Separator) + extension
  }

  /** The file a class is written to: `Path.Combine(dir, relative path)`. */
  function ClassFile(dir: string, className: string, extension: string): string {
    Combine(dir, RelativeClassPath(className, extension))
  }

  /** The directory created first: `Path.Combine(dir, Path.GetDirectoryName(relative path))`. */
  function ClassDirectory(dir: string, className: string, extension: string): string {
    Combine(dir, DirectoryName(RelativeClassPath(className, extension)))
  }

  /**
   * A fully qualified class name as the container yields it: dotted
   * segments, none of them empty (no leading, trailing or doubled `.`),
   * and no `/`.
   */
  predicate QualifiedName(className: string) {
    && |className| > 0 && className[0] != '.' && className[|className| - 1] != '.'
    && (forall i :: 0 <= i < |className| - 1 && className[i] == '.' ==> className[i + 1] != '.')
    && Separator !in className
  }

  /** An output directory as `-o` accepts it, written without a trailing separator. */
  predicate PlainDirectory(dir: string) {
    |dir| > 0 && dir[|dir| - 1] != Separator
  }

  /** The relative path starts like the class name and has a separator exactly where the name has a dot. */
  lemma RelativePathShape(className: string, extension: string)
    requires QualifiedName(className) && Separator !in extension
    ensures RelativeClassPath(className, extension)[0] == className[0]
    ensures Separator in RelativeClassPath(className, extension) <==> '.' in className
  {
    var replaced := ReplaceChar(className, '.', Separator);
    var rel := RelativeClassPath(className, extension);
    assert rel[0] == replaced[0];
    if '.' in className {
      var k :| 0 <= k < |className| && className[k] == '.';
      assert rel[k] == Separator;
    } else {
      forall i | 0 <= i < |rel| ensures rel[i] != Separator {
        if i >= |replaced| { assert rel[i] == extension[i - |replaced|]; } else { assert rel[i] == className[i]; }
      }
    }
  }

  /**
   * The layout of the per-class file: each `.` of the class name becomes a
   * directory level under the output directory, and the writer's extension
   * is appended.
   */
  lemma ClassFileLayout(dir: string, className: string, extension: string)
    requires PlainDirectory(dir) && QualifiedName(className) && Separator !in extension
    ensures ClassFile(dir, className, extension) == dir + [Separator] + ReplaceChar(className, '.', Separator) + extension
  {
    RelativePathShape(className, extension);
  }

  /**
   * The file lies directly in the directory created for it, which is the
   * output directory itself for a class without a package.
   */
  lemma ClassDirectoryHoldsFile(dir: string, className: string, extension: string)
    requires PlainDirectory(dir) && QualifiedName(className) && Separator !in extension
    ensures '.' in className ==>
      ClassFile(dir, className, extension) == ClassDirectory(dir, className, extension) + [Separator]
        + FileName(RelativeClassPath(className, extension))
    ensures '.' !in className ==> ClassDirectory(dir, className, extension) == dir
  {
    RelativePathShape(className, extension);
    var rel := RelativeClassPath(className, extension);
    if '.' in className {
      var dn := DirectoryName(rel);
      assert rel == dn + [Separator] + FileName(rel);
      assert |dn| > 0 && dn[0] == rel[0];
      assert Combine(dir, dn) == dir + [Separator] + dn;
      assert Combine(dir, rel) == dir + [Separator] + rel;
    }
  }

  /**
   * Below the output directory the class's path has no empty segment: a
   * separator is never followed by another one, so the path string names
   * the file without any `//` collapsing.
   */
  lemma ClassFileHasNoEmptySegment(dir: string, className: string, extension: string)
    requires PlainDirectory(dir) && QualifiedName(className) && Separator !in extension
    ensures var f := ClassFile(dir, className, extension);
      forall i :: |dir| <= i < |f| - 1 && f[i] == Separator ==> f[i + 1] != Separator
  {
    ClassFileLayout(dir, className, extension);
    var r := ReplaceChar(className, '.', Separator);
    var f := ClassFile(dir, className, extension);
    assert f == dir + [Separator] + r + extension;
    forall i | |dir| <= i < |f| - 1 && f[i] == Separator
      ensures f[i + 1] != Separator
    {
      var j := i + 1 - (|dir| + 1);
      if j < |r| {
        assert f[i + 1] == r[j];
        if j > 0 {
          assert f[i] == r[j - 1] && className[j - 1] == '.';
        }
      }
    }
  }

  /** `ReplaceChar` is reversible on names that had no `b` in them. */
  lemma ReplaceInjective(x: string, y: string, a: char, b: char)
    requires b !in x && b !in y && ReplaceChar(x, a, b) == ReplaceChar(y, a, b)
    ensures x == y
  {
    assert |x| == |y|;
    forall i | 0 <= i < |x| ensures x[i] == y[i] {
      assert ReplaceChar(x, a, b)[i] == ReplaceChar(y, a, b)[i];
    }
  }

  /**
   * Distinct class names go to distinct files, so within one input no class
   * overwrites another's output. Because no segment is empty, no path
   * contains `//`, and equal files are equal path strings.
   */
  lemma ClassFileInjective(dir: string, c1: string, c2: string, extension: string)
    requires PlainDirectory(dir) && QualifiedName(c1) && QualifiedName(c2) && Separator !in extension
    requires ClassFile(dir, c1, extension) == ClassFile(dir, c2, extension)
    ensures c1 == c2
  {
    ClassFileLayout(dir, c1, extension);
    ClassFileLayout(dir, c2, extension);
    var r1, r2 := ReplaceChar(c1, '.', Separator), ReplaceChar(c2, '.', Separator);
    var pre := dir + [Separator];
    var f := ClassFile(dir, c1, extension);
    assert f == pre + r1 + extension && f == pre + r2 + extension;
    assert |r1| == |r2|;
    assert r1 == f[|pre|..|pre| + |r1|];
    assert r2 == f[|pre|..|pre| + |r2|];
    ReplaceInjective(c1, c2, '.', Separator);
  }
}

=== FILE: seqs.dfy ===
/** Order-preserving selection from a sequence, and the facts the model needs about it. */
module Seqs {

  /** The elements of `xs` that satisfy `keep`, in order. */
  function Filter<T>(xs: seq<T>, keep: T -> bool): (r: seq<T>)
    ensures |r| <= |xs|
  {
    if |xs| == 0 then []
    else
      var last := xs[|xs| - 1];
      Filter(xs[..|xs| - 1], keep) + (if keep(last) then [last] else [])
  }

  lemma FilterSnoc<T>(xs: seq<T>, x: T, keep: T -> bool)
    ensures Filter(xs + [x], keep) == Filter(xs, keep) + (if keep(x) then [x] else [])
  {
    assert (xs + [x])[..|xs|] == xs;
  }

  lemma {:induction false} FilterCons<T>(x: T, xs: seq<T>, keep: T -> bool)
    ensures Filter([x] + xs, keep) == (if keep(x) then [x] else []) + Filter(xs, keep)
    decreases |xs|
  {
    if |xs| == 0 {
      assert [x] + xs == [x];
      assert [x][..0] == [];
    } else {
      var init, last := xs[..|xs| - 1], xs[|xs| - 1];
      assert [x] + xs == ([x] + init) + [last];
      FilterSnoc([x] + init, last, keep);
      FilterCons(x, init, keep);
      FilterSnoc(init, last, keep);
      assert init + [last] == xs;
    }
  }

  /** Filtering a prefix gives a prefix of the filtered sequence. */
  lemma {:induction false} FilterPrefix<T>(xs: seq<T>, n: nat, keep: T -> bool)
    requires n <= |xs|
    ensures Filter(xs[..n], keep) <= Filter(xs, keep)
    decreases |xs| - n
  {
    if n < |xs| {
      FilterPrefix(xs, n + 1, keep);
      FilterSnoc(xs[..n], xs[n], keep);
      assert xs[..n] + [xs[n]] == xs[..n + 1];
    } else {
      assert xs[..n] == xs;
    }
  }

  /** A kept element sits in the filtered sequence right after the kept elements before it. */
  lemma FilterPosition<T>(xs: seq<T>, i: nat, keep: T -> bool)
    requires i < |xs| && keep(xs[i])
    ensures |Filter(xs[..i], keep)| < |Filter(xs, keep)|
    ensures Filter(xs, keep)[|Filter(xs[..i], keep)|] == xs[i]
  {
    FilterPrefix(xs, i + 1, keep);
    FilterSnoc(xs[..i], xs[i], keep);
    assert xs[..i] + [xs[i]] == xs[..i + 1];
  }

  /** Every kept element of `xs` occurs in the filtered sequence. */
  lemma FilterKeepsAll<T>(xs: seq<T>, i: nat, keep: T -> bool)
    requires i < |xs| && keep(xs[i])
    ensures xs[i] in Filter(xs, keep)
  {
    FilterPosition(xs, i, keep);
  }

  /** Every element of the filtered sequence passes the test. */
  lemma {:induction false} FilterOnlyKept<T>(xs: seq<T>, j: nat, keep: T -> bool)
    requires j < |Filter(xs, keep)|
    ensures keep(Filter(xs, keep)[j])
    decreases |xs|
  {
    var init := xs[..|xs| - 1];
    if j < |Filter(init, keep)| {
      FilterOnlyKept(init, j, keep);
    }
  }

  /** Every element of the filtered sequence comes from the original. */
  lemma {:induction false} FilterKept<T>(xs: seq<T>, j: nat, keep: T -> bool)
    requires j < |Filter(xs, keep)|
    ensures Filter(xs, keep)[j] in xs
    decreases |xs|
  {
    var init := xs[..|xs| - 1];
    if j < |Filter(init, keep)| {
      FilterKept(init, j, keep);
      assert Filter(init, keep)[j] in init;
    }
  }

  /** No element occurs twice. */
  predicate Distinct<T(==)>(xs: seq<T>) {
    forall a, b :: 0 <= a < b < |xs| ==> xs[a] != xs[b]
  }

  /** How many elements pass the test, counted from the front. */
  function CountKept<T>(xs: seq<T>, keep: T -> bool): (n: nat)
    ensures n <= |xs|
  {
    if |xs| == 0 then 0 else (if keep(xs[0]) then 1 else 0) + CountKept(xs[1..], keep)
  }

  /** The filtered sequence is as long as the count of kept elements. */
  lemma {:induction false} FilterLength<T>(xs: seq<T>, keep: T -> bool)
    ensures |Filter(xs, keep)| == CountKept(xs, keep)
    decreases |xs|
  {
    if |xs| > 0 {
      FilterCons(xs[0], xs[1..], keep);
      assert [xs[0]] + xs[1..] == xs;
      FilterLength(xs[1..], keep);
    }
  }

  /** Where a kept element sits among the kept ones: after every kept element before it. */
  lemma KeptRank<T>(xs: seq<T>, kept: seq<T>, keep: T -> bool, i: nat, k: nat)
    requires Filter(xs, keep) == kept && Distinct(kept)
    requires i < |xs| && k < |kept| && xs[i] == kept[k]
    ensures CountKept(xs[..i], keep) == k
  {
    FilterOnlyKept(xs, k, keep);
    FilterPosition(xs, i, keep);
    FilterLength(xs[..i], keep);
  }

  /**
   * Relabels a sequence: each kept element takes the next label from
   * `queue` (starting at position `next`), every other element is labelled
   * by `own`.
   */
  function Relabel<T, U>(xs: seq<T>, keep: T -> bool, own: T -> U, queue: seq<U>, next: nat): (r: seq<U>)
    requires next + CountKept(xs, keep) <= |queue|
    ensures |r| == |xs|
  {
    if |xs| == 0 then []
    else if keep(xs[0]) then [queue[next]] + Relabel(xs[1..], keep, own, queue, next + 1)
    else [own(xs[0])] + Relabel(xs[1..], keep, own, queue, next)
  }

  /** A kept element is labelled by the queue entry its rank among the kept elements selects. */
  lemma {:induction false} RelabelKept<T, U>(xs: seq<T>, keep: T -> bool, own: T -> U, queue: seq<U>, next: nat, i: nat)
    requires next + CountKept(xs, keep) <= |queue|
    requires i < |xs| && keep(xs[i])
    ensures next + CountKept(xs[..i], keep) < |queue|
    ensures Relabel(xs, keep, own, queue, next)[i] == queue[next + CountKept(xs[..i], keep)]
    decreases i
  {
    if i == 0 {
      assert xs[..i] == [];
    } else {
      var rest := xs[1..];
      RelabelKept(rest, keep, own, queue, if keep(xs[0]) then next + 1 else next, i - 1);
      assert xs[..i][1..] == rest[..i - 1];
    }
  }

  /** Any other element keeps its own label. */
  lemma {:induction false} RelabelOwn<T, U>(xs: seq<T>, keep: T -> bool, own: T -> U, queue: seq<U>, next: nat, i: nat)
    requires next + CountKept(xs, keep) <= |queue|
    requires i < |xs| && !keep(xs[i])
    ensures Relabel(xs, keep, own, queue, next)[i] == own(xs[i])
    decreases i
  {
    if i > 0 {
      RelabelOwn(xs[1..], keep, own, queue, if keep(xs[0]) then next + 1 else next, i - 1);
    }
  }
}

=== FILE: text.dfy ===
/**
 * String and path helpers with the behaviour of the .NET calls the driver
 * makes: `ToLower`, `Trim`, `Split`, `StartsWith`, `Replace` and the
 * `System.IO.Path` functions, on POSIX paths whose separator is '/'.
 */
module Text {
  import opened Outcomes

  const Separator: char := '/'

  /** ASCII lower-casing of one character. */
  function LowerChar(c: char): (r: char)
    ensures 'A' <= c <= 'Z' ==> r as int == c as int + 32
    ensures !('A' <= c <= 'Z') ==> r == c
  {
    if 'A' <= c <= 'Z' then (c as int + 32) as char else c
  }

  /** `string.ToLower()`, restricted to ASCII letters. */
  function ToLower(s: string): (r: string)
    ensures |r| == |s|
    ensures forall i :: 0 <= i < |s| ==> r[i] == LowerChar(s[i])
  {
    if |s| == 0 then "" else [LowerChar(s[0])] + ToLower(s[1..])
  }

  predicate IsUpper(c: char) { 'A' <= c <= 'Z' }

  predicate IsWhite(c: char) {
    c == ' ' || c == '\t' || c == '\n' || c == '\r' || c == '\U{B}' || c == '\U{C}'
  }

  function TrimStart(s: string): (r: string)
    ensures |r| <= |s| && r == s[|s| - |r|..]
    ensures |r| > 0 ==> !IsWhite(r[0])
    ensures forall i :: 0 <= i < |s| - |r| ==> IsWhite(s[i])
  {
    if |s| > 0 && IsWhite(s[0]) then
      var r := TrimStart(s[1..]);
      assert s[1..][|s| - 1 - |r|..] == s[|s| - |r|..];
      r
    else s
  }

  function TrimEnd(s: string): (r: string)
    ensures |r| <= |s| && r == s[..|r|]
    ensures |r| > 0 ==> !IsWhite(r[|r| - 1])
    ensures forall i :: |r| <= i < |s| ==> IsWhite(s[i])
  {
    if |s| > 0 && IsWhite(s[|s| - 1]) then
      var r := TrimEnd(s[..|s| - 1]);
      assert s[..|s| - 1][..|r|] == s[..|r|];
      r
    else s
  }

  /** `string.Trim()`: leading and trailing white space removed. */
  function Trim(s: string): (r: string)
    ensures |r| > 0 ==> !IsWhite(r[0]) && !IsWhite(r[|r| - 1])
  {
    TrimEnd(TrimStart(s))
  }

  predicate StartsWith(s: string, prefix: string) {
    |prefix| <= |s| && s[..|prefix|] == prefix
  }

  predicate EndsWith(s: string, suffix: string) {
    |suffix| <= |s| && s[|s| - |suffix|..] == suffix
  }

  /** `string.Split(c)`: every separator splits, so empty pieces are kept. */
  function Split(s: string, c: char): (r: seq<string>)
    ensures |r| > 0
    ensures forall i :: 0 <= i < |r| ==> c !in r[i]
    decreases |s|
  {
    if |s| == 0 then [""]
    else
      var rest := Split(s[1..], c);
      if s[0] == c then [""] + rest else [[s[0]] + rest[0]] + rest[1..]
  }

  /** A trailing separator leaves an empty last piece. */
  lemma {:induction false} SplitTrailingSeparator(s: string, c: char)
    ensures |Split(s + [c], c)| >= 2 && Split(s + [c], c)[|Split(s + [c], c)| - 1] == ""
    decreases |s|
  {
    if |s| == 0 {
      assert s + [c] == [c] && [c][1..] == "";
    } else {
      assert (s + [c])[0] == s[0] && (s + [c])[1..] == s[1..] + [c];
      SplitTrailingSeparator(s[1..], c);
    }
  }

  /** A string without the separator splits into itself. */
  lemma {:induction false} SplitWithoutSeparator(s: string, c: char)
    requires c !in s
    ensures Split(s, c) == [s]
    decreases |s|
  {
    if |s| > 0 {
      assert c !in s[1..];
      SplitWithoutSeparator(s[1..], c);
      assert [s[0]] + s[1..] == s;
    }
  }

  /** Puts the pieces back together with `c` between them: the inverse of `Split`. */
  function Join(pieces: seq<string>, c: string): string {
    if |pieces| == 0 then ""
    else if |pieces| == 1 then pieces[0]
    else pieces[0] + c + Join(pieces[1..], c)
  }

  lemma {:induction false} SplitJoin(s: string, c: char)
    ensures Join(Split(s, c), [c]) == s
    decreases |s|
  {
    if |s| > 0 {
      var rest := Split(s[1..], c);
      SplitJoin(s[1..], c);
      if s[0] == c {
        assert Split(s, c) == [""] + rest;
      } else {
        assert Split(s, c) == [[s[0]] + rest[0]] + rest[1..];
        if |rest| == 1 {
        } else {
          assert Join(rest, [c]) == rest[0] + [c] + Join(rest[1..], [c]);
          assert ([[s[0]] + rest[0]] + rest[1..])[1..] == rest[1..];
        }
      }
    }
  }

  /** Replaces every occurrence of character `a` by `b`: `string.Replace(char, char)`. */
  function ReplaceChar(s: string, a: char, b: char): (r: string)
    ensures |r| == |s|
    ensures forall i :: 0 <= i < |s| ==> r[i] == (if s[i] == a then b else s[i])
  {
    if |s| == 0 then "" else [if s[0] == a then b else s[0]] + ReplaceChar(s[1..], a, b)
  }

  /** Index of the last occurrence of `c` in `s`, if any. */
  function LastIndexOf(s: string, c: char): (r: Option<nat>)
    ensures r.Some? ==> r.value < |s| && s[r.value] == c
    ensures r.Some? ==> forall j :: r.value < j < |s| ==> s[j] != c
    ensures r.None? ==> forall j :: 0 <= j < |s| ==> s[j] != c
  {
    if |s| == 0 then None
    else if s[|s| - 1] == c then Some(|s| - 1)
    else
      var r := LastIndexOf(s[..|s| - 1], c);
      assert s == s[..|s| - 1] + [s[|s| - 1]];
      r
  }

  /** `c` is absent exactly when there is no last occurrence of it. */
  lemma LastIndexOfNone(s: string, c: char)
    ensures LastIndexOf(s, c).None? <==> c !in s
  {
  }

  /** Appending characters other than `c` leaves the last `c` where it was. */
  lemma {:induction false} LastIndexOfAppend(a: string, b: string, c: char)
    requires c !in b
    ensures LastIndexOf(a + b, c) == LastIndexOf(a, c)
    decreases |b|
  {
    if |b| > 0 {
      var b' := b[..|b| - 1];
      assert (a + b)[..|a + b| - 1] == a + b';
      assert c !in b';
      LastIndexOfAppend(a, b', c);
    } else {
      assert a + b == a;
    }
  }

  /** `Path.GetFileName`: the part after the last separator. */
  function FileName(p: string): (r: string)
    ensures forall i :: 0 <= i < |r| ==> r[i] != Separator
    ensures EndsWith(p, r)
  {
    match LastIndexOf(p, Separator)
    case None => p
    case Some(k) => p[k + 1..]
  }

  /** `Path.GetDirectoryName` on a relative path: the part before the last separator. */
  function DirectoryName(p: string): (r: string)
    ensures Separator in p ==> p == r + [Separator] + FileName(p)
    ensures Separator !in p ==> r == ""
  {
    LastIndexOfNone(p, Separator);
    match LastIndexOf(p, Separator)
    case None => ""
    case Some(k) => p[..k]
  }

  /** Appending a separator-free tail extends the file name by that tail. */
  lemma FileNameAppend(a: string, b: string)
    requires Separator !in b
    ensures FileName(a + b) == FileName(a) + b
  {
    LastIndexOfAppend(a, b, Separator);
    match LastIndexOf(a, Separator)
    case None =>
      assert FileName(a + b) == a + b;
      assert FileName(a) == a;
    case Some(k) =>
      assert FileName(a + b) == (a + b)[k + 1..];
      assert FileName(a) == a[k + 1..];
      SliceAppend(a, b, k + 1);
  }

  lemma SliceAppend(a: string, b: string, i: nat)
    requires i <= |a|
    ensures (a + b)[i..] == a[i..] + b
  {
  }

  /** A file name has no directory part left to strip. */
  lemma FileNameIdempotent(p: string)
    ensures FileName(FileName(p)) == FileName(p)
  {
    LastIndexOfNone(FileName(p), Separator);
  }

  /**
   * `Path.GetExtension`: from the last '.' of the file name to the end,
   * or empty when the name has no '.' or ends with one.
   */
  function Extension(p: string): (r: string)
    ensures r == "" || (|r| >= 2 && r[0] == '.')
  {
    var name := FileName(p);
    match LastIndexOf(name, '.')
    case None => ""
    case Some(k) => if k == |name| - 1 then "" else name[k..]
  }

  /** The extension depends on the file name only. */
  lemma ExtensionOfFileName(p: string)
    ensures Extension(FileName(p)) == Extension(p)
  {
    FileNameIdempotent(p);
  }

  /** A path ending in `.` followed by a tail with no `.` and no separator has that extension. */
  lemma ExtensionOfSuffix(stem: string, tail: string)
    requires |tail| > 0 && '.' !in tail && Separator !in tail
    ensures Extension(stem + "." + tail) == "." + tail
  {
    var p := stem + "." + tail;
    assert p == stem + ("." + tail);
    FileNameAppend(stem, "." + tail);
    var name := FileName(p);
    assert name == (FileName(stem) + ".") + tail;
    LastIndexOfAppend(FileName(stem) + ".", tail, '.');
    assert LastIndexOf(FileName(stem) + ".", '.') == Some(|FileName(stem)|);
    assert name[|FileName(stem)|..] == "." + tail;
  }

  /** A '.' occurs after the last separator of `p`, read from the end. */
  predicate DotInFileName(p: string)
    decreases |p|
  {
    |p| > 0 && p[|p| - 1] != Separator && (p[|p| - 1] == '.' || DotInFileName(p[..|p| - 1]))
  }

  /** The backward scan agrees with looking for '.' in the file name. */
  lemma {:induction false} DotInFileNameMeans(p: string)
    ensures DotInFileName(p) <==> '.' in FileName(p)
    decreases |p|
  {
    if |p| > 0 {
      var init, last := p[..|p| - 1], p[|p| - 1];
      assert p == init + [last];
      if last == Separator {
        assert LastIndexOf(p, Separator) == Some(|p| - 1);
        assert FileName(p) == [];
      } else {
        FileNameAppend(init, [last]);
        DotInFileNameMeans(init);
      }
    }
  }

  /** `Path.Combine(a, b)`: joins with one separator; an absolute or empty `b` is special. */
  function Combine(a: string, b: string): (r: string)
    ensures b == "" ==> r == a
    ensures a == "" ==> r == b
    ensures a != "" && b != "" && b[0] != Separator && a[|a| - 1] != Separator ==> r == a + [Separator] + b
  {
    if b == "" then a
    else if a == "" then b
    else if b[0] == Separator then b
    else if a[|a| - 1] == Separator then a + b
    else a + [Separator] + b
  }

  /** Decimal digits of `n`, most significant first. */
  function Digits(n: nat): (r: string)
    ensures |r| > 0
    ensures forall i :: 0 <= i < |r| ==> '0' <= r[i] <= '9'
    ensures n < 10 <==> |r| == 1
  {
    if n < 10 then [('0' as int + n) as char]
    else Digits(n / 10) + [('0' as int + n % 10) as char]
  }

  /** Different numbers have different decimal renderings. */
  lemma {:induction false} DigitsInjective(a: nat, b: nat)
    requires Digits(a) == Digits(b)
    ensures a == b
    decreases a
  {
    if a >= 10 {
      var da, db := Digits(a), Digits(b);
      assert da[|da| - 1] == db[|db| - 1];
      assert da[..|da| - 1] == Digits(a / 10) && db[..|db| - 1] == Digits(b / 10);
      DigitsInjective(a / 10, b / 10);
    }
  }

  /** `c` repeated `n` times. */
  function Repeat(c: char, n: nat): (r: string)
    ensures |r| == n
    ensures forall i :: 0 <= i < n ==> r[i] == c
  {
    if n == 0 then "" else [c] + Repeat(c, n - 1)
  }

  /** `s` occurs inside `t` starting at index `j`. */
  predicate OccursAt(t: string, s: string, j: int) {
    0 <= j <= |t| - |s| && t[j..j + |s|] == s
  }

  /** `s` occurs somewhere inside `t`. */
  ghost predicate Contains(t: string, s: string) {
    exists j :: OccursAt(t, s, j)
  }
}

=== FILE: writer_registry.dfy ===
/**
 * The writer registry as the driver sees it (dedex/Main.cs lines 78-86,
 * 145-147 and 200-221). The writer names come from the writer factory of
 * the disassembler library, which is not part of this model; they are a
 * parameter here.
 */
module WriterRegistry {
  import opened Outcomes
  import opened Text

  /** `s.Replace(" ", "")`. */
  function RemoveSpaces(s: string): (r: string)
    ensures ' ' !in r
    ensures |r| <= |s|
  {
    if |s| == 0 then "" else (if s[0] == ' ' then "" else [s[0]]) + RemoveSpaces(s[1..])
  }

  /** The registry key of a writer name: lower-cased, spaces removed. */
  function Key(name: string): (r: string)
    ensures ' ' !in r
    ensures forall i :: 0 <= i < |r| ==> !IsUpper(r[i])
  {
    var lower := ToLower(name);
    assert forall i :: 0 <= i < |lower| ==> !IsUpper(lower[i]);
    KeepsNoUpper(lower);
    RemoveSpaces(lower)
  }

  lemma {:induction false} KeepsNoUpper(s: string)
    requires forall i :: 0 <= i < |s| ==> !IsUpper(s[i])
    ensures forall i :: 0 <= i < |RemoveSpaces(s)| ==> !IsUpper(RemoveSpaces(s)[i])
  {
    if |s| > 0 {
      KeepsNoUpper(s[1..]);
    }
  }

  /** The keys in registration order (the dictionary's key list). */
  function Keys(names: seq<string>): (r: seq<string>)
    ensures |r| == |names|
    ensures forall i :: 0 <= i < |names| ==> r[i] == Key(names[i])
  {
    if |names| == 0 then [] else [Key(names[0])] + Keys(names[1..])
  }

  /** `Dictionary.Add` throws on a repeated key: the map can only be built when keys are distinct. */
  predicate DistinctKeys(names: seq<string>) {
    forall i, j :: 0 <= i < j < |names| ==> Key(names[i]) != Key(names[j])
  }

  /** What the library guarantees: at least one writer (the default) and distinct keys. */
  predicate WellFormed(names: seq<string>) {
    |names| > 0 && DistinctKeys(names)
  }

  /** First writer whose key is exactly `key`. */
  function Find(names: seq<string>, key: string): (r: Option<string>)
    ensures r.Some? ==> r.value in names && Key(r.value) == key
    ensures r.None? <==> forall i :: 0 <= i < |names| ==> Key(names[i]) != key
  {
    if |names| == 0 then None
    else if Key(names[0]) == key then Some(names[0])
    else
      var r := Find(names[1..], key);
      assert forall i :: 1 <= i < |names| ==> names[i] == names[1..][i - 1];
      r
  }

  /**
   * `GetWritersMap()[writerName]` inside the `try`: the user's text is used
   * as the key as it is (not lower-cased); a missing key, or a map that
   * could not be built, is a failure.
   */
  function Lookup(names: seq<string>, writerName: string): (r: Option<string>)
    ensures r.Some? <==> DistinctKeys(names) && writerName in Keys(names)
    ensures r.Some? ==> r.value in names && Key(r.value) == writerName
  {
    if DistinctKeys(names) then Find(names, writerName) else None
  }

  /** The writer a run uses: the one chosen with `-w`, else the first registered. */
  function Choose(names: seq<string>, chosen: Option<string>): (r: string)
    requires |names| > 0
    requires chosen.Some? ==> chosen.value in names
    ensures r in names
    ensures chosen.None? ==> r == names[0]
    ensures chosen.Some? ==> r == chosen.value
  {
    match chosen
    case Some(n) => n
    case None => names[0]
  }

  /** A key never contains an upper-case letter, so a writer name typed with one is never found. */
  lemma UpperCaseNotFound(names: seq<string>, writerName: string, i: nat)
    requires i < |writerName| && IsUpper(writerName[i])
    ensures Lookup(names, writerName).None?
  {
  }

  /** Every registered writer is found under its own key when the keys are distinct. */
  lemma EveryKeyFound(names: seq<string>, i: nat)
    requires DistinctKeys(names) && i < |names|
    ensures Lookup(names, Key(names[i])) == Some(names[i])
  {
    var r := Lookup(names, Key(names[i]));
    var j :| 0 <= j < |names| && names[j] == r.value;
    assert Key(names[j]) == Key(names[i]);
  }

  /** The fixed lines `PrintHelp` writes before the writer list. */
  const HelpPrefix: string :=
    "Usage:\n\tdedex [options] <file.dex|apk> [file2.dex ... fileN.dex]\n\n"
    + "\t-c <pattern>. Display only classes matching the pattern. * is a wildcard\n"
    + "\t-d <display[,display...]>. Options are All, Classes, Methods, Fields, OpCodes\n"
    + "\t-o <directory>. Write classes to individual files in the output directory\n"
    + "\t-w <language>. One of "

  /** The text `PrintHelp` writes: fixed lines, then the writer keys joined by ", ". */
  function HelpText(names: seq<string>): string {
    HelpPrefix + Join(Keys(names), ", ") + "\n"
  }

  lemma ContainsInContext(pre: string, t: string, post: string, w: string)
    requires Contains(t, w)
    ensures Contains(pre + t + post, w)
  {
    var k :| OccursAt(t, w, k);
    var whole := pre + t + post;
    assert whole[|pre| + k..|pre| + k + |w|] == t[k..k + |w|];
    assert OccursAt(whole, w, |pre| + k);
  }

  lemma {:induction false} JoinContainsPiece(pieces: seq<string>, sep: string, i: nat)
    requires i < |pieces|
    ensures Contains(Join(pieces, sep), pieces[i])
    decreases |pieces|
  {
    var j := Join(pieces, sep);
    if |pieces| == 1 {
      assert OccursAt(j, pieces[i], 0);
    } else if i == 0 {
      assert j[..|pieces[0]|] == pieces[0];
      assert OccursAt(j, pieces[i], 0);
    } else {
      JoinContainsPiece(pieces[1..], sep, i - 1);
      var rest := Join(pieces[1..], sep);
      var k :| OccursAt(rest, pieces[i], k);
      var off := |pieces[0] + sep|;
      assert j == pieces[0] + sep + rest;
      assert j[off + k..off + k + |pieces[i]|] == rest[k..k + |pieces[i]|];
      assert OccursAt(j, pieces[i], off + k);
    }
  }

  /** The usage text lists every writer key. */
  lemma HelpListsEveryKey(names: seq<string>, i: nat)
    requires i < |names|
    ensures Contains(HelpText(names), Key(names[i]))
  {
    JoinContainsPiece(Keys(names), ", ", i);
    ContainsInContext(HelpPrefix, Join(Keys(names), ", "), "\n", Key(names[i]));
  }
}
